=== FILE: README.md ===
# word: a Leitner-box study engine, modelled in Dafny

`word` is a small command-line flashcard tool. It keeps cards (front, back,
box, due date) in one SQLite table, `words`. It lets the learner add cards,
study the cards that are due, and export or import the table as CSV. This
project models the tool's decision logic as pure Dafny and proves what that
logic promises:

- the Leitner update rule: a correct answer moves a card up one box and
  schedules it `1 << box` days out (2^box in Go's 64-bit `int`), counted
  after the increment; a wrong answer sends it back to box 0, due today;
- selection of *some* due card, or "done for today";
- the answer check: an exact match is correct, otherwise the yes/no `confirm`
  prompt decides;
- import validation and export, including the export→import round trip.

Modules, in dependency order:

| file | module | what it models |
|---|---|---|
| maybe.dfy | `Maybe` | `Option`, for "nothing": no due card, a field that does not parse, end of input |
| decimal.dfy | `Decimal` | `fmt.Sprint` of a box and `strconv.Atoi`, with Go's 64-bit range |
| calendar.dfy | `Calendar` | Gregorian dates, next day, adding days, and a day count to check them against |
| date_text.dfy | `DateText` | `YYYY-MM-DD` text: SQLite's `date()` output and Go's `time.Parse(time.DateOnly, …)`; text order equals date order |
| leitner.dfy | `Leitner` | the box/interval rule |
| key_order.dfy | `KeyOrder` | largest row id and ascending ids |
| word_store.dfy | `WordStore` | the table as a map from id to `Card`; add, due test, selection, the review write |
| answer.dfy | `Answer` | the answer check and the `confirm` loop over input lines |
| transfer.dfy | `Transfer` | record validation, import, export |
| study.dfy | `Study` | one study session |

Modelling choices:

- **Store.** The table is a `map<int, Card>`. A row inserted without an id
  gets one more than the largest id, or 1 in an empty table. That is SQLite's
  rule for an `integer primary key` without AUTOINCREMENT. The program never
  deletes rows.
- **Dates.** A date is a `Date(year, month, day)`. A stored due date is always
  the text of a real date with a four-digit year (the subset type `DueDate`).
- **The due test.** `due <= date()` compares *text*. `TextOrderIsDateOrder`
  proves that, for such dates, comparing the text byte by byte gives the same
  answer as comparing the dates. The model can therefore use date order.
- **Adding days.** `date('now', '+N days')` is `AddDays(today, N)`, which steps
  to the next day `N` times. `AddDaysNumber` checks this against an
  independent count of days since 0000-01-01.
- **Go's `int`.** A box is a 64-bit integer (the subset type `Int64`).
  `box++` wraps from the largest value to the smallest (`Increment`), and
  `1 << n` is 2^n read as a 64-bit two's-complement value (`ShiftOne`): bit
  63 makes it the most negative `int`, and for n of 64 or more it is 0.
- **Parameters.** "Today" is a parameter: the store's clock, the same value for
  the due test and for the new due date. The input the learner types is a
  sequence of lines; an empty sequence where a line is needed is end of input.

Some behaviours of the code are easy to miss; the model follows the code:

- **Negative boxes.** Import accepts a negative box, because `strconv.Atoi`
  takes a sign. A correct review of a card in box -2 or lower then shifts by
  a negative count, which is a run-time panic in Go (`ShiftPanic`). From box
  -1, a correct review goes to box 0 with a 1-day interval.
- **Very high boxes.** Only an imported box reaches these. From box 62 the
  new box is 63, and `1 << 63` is the most negative `int`. The SQL modifier
  then reads `+-9223372036854775808 days`, which SQLite cannot read, so the
  new due date is NULL and the write is refused (`NullDue`). From box 63 up
  to the largest `int` less one, the shift count is 64 or more, so the
  interval is 0. A correct answer then raises the box but leaves the card due
  today. From the largest `int`, `box++` wraps to the smallest, and the
  shift panics.
- **Field counts.** A record whose field count differs from the *first*
  record's is not skipped. The CSV reader fixes the field count from the
  first record and reports a later mismatch as a read error, and the program
  then exits with status 2. Rows inserted before that point stay. Only a
  record with the same count as the first one, but not four fields, is
  skipped with a warning (`ImportAbortsOnWidthChange`, `ImportUniform`).
- **Which due card.** Selection is not ordered: the query has no `order by`.
  The code promises only that the card returned is due.
- **Intervals.** A wrong answer makes the card due today (0 days). A new card
  is due today.
- **Dates past 9999-12-31.** A new due date after 9999-12-31 makes SQLite's
  `date()` return NULL. The `due` column is NOT NULL, so the write is refused
  and the program exits with a store error (`NullDue`, `StoreFailed`).

## Model

| member | source | states |
|---|---|---|
| Leitner.Increment | main.go:230 | `box++` is one more modulo 2^64, and exactly one more below the largest `int` |
| Leitner.ShiftOne | main.go:231 | `1 << n` is a 64-bit value congruent to 2^n modulo 2^64 |
| Leitner.Schedule | main.go:228-234 | a wrong answer gives box 0 and 0 days; a negative shift (panic) happens exactly when the answer is correct and the box is below -1 or the largest `int`; otherwise the new box is never negative, a correct answer raises it by one, and the interval is `1 << box` of the new box modulo 2^64 |
| Leitner.CorrectAdvances | main.go:228-232 | from box b in 0..61 a correct answer gives box b+1 and an interval of 2^(b+1) days, at least 2 |
| Leitner.IntervalDoubles | main.go:229-231 | each box up doubles the interval after a correct answer, while it fits |
| Leitner.FailureResets | main.go:232-234 | a wrong answer gives box 0 and 0 days from any box, negative ones included |
| Leitner.MinusOneAdvancesToZero | main.go:229-231 | an imported box of -1 advances to box 0 with a 1-day interval |
| Leitner.Box62GoesNegative | main.go:229-231 | from box 62 the interval is the most negative `int` |
| Leitner.HighBoxHasNoDelay | main.go:229-231 | from box 63 up to the largest `int` less one the interval is 0 days |
| Leitner.TopBoxPanics | main.go:229-231 | from the largest `int` the box wraps and the shift panics |
| Calendar.NextDay | main.go:128 | the next day is a valid date strictly after the given one |
| Calendar.AddDays | main.go:128 | adding n days gives a valid date, the same date iff n = 0, and a strictly later one when n > 0 |
| Calendar.AddDaysNumber | main.go:128 | adding n days moves exactly n days along the day count since 0000-01-01 |
| Calendar.BeforeIffSmallerDayNumber | main.go:123 | date order is the order of day counts, in both directions |
| Decimal.FormatInt | main.go:158 | `fmt.Sprint` of an integer starts with '-' exactly for negatives, and the rest is the shortest decimal spelling of the magnitude |
| Decimal.Atoi | main.go:184-188 | only an optional sign followed by digits is read; an accepted text is a sign, leading zeros and the shortest spelling of a 64-bit value, with '-' before every negative value and before no positive one |
| Decimal.AtoiReadsSpelling | main.go:184-188 | conversely, every such spelling of a 64-bit value is accepted as that value |
| Decimal.AtoiOfFormat | main.go:158 | Atoi reads back `fmt.Sprint` of every 64-bit integer unchanged, so exported boxes pass import validation |
| Decimal.AtoiAcceptsNegative | main.go:184-188 | a minus-signed number is accepted as a negative box |
| Decimal.AtoiRejectsOverflow | main.go:184-188 | a magnitude beyond the 64-bit range is rejected, whatever its sign and leading zeros |
| DateText.FormatDate | main.go:104 | SQLite's date text is ten characters with '-' as the fifth and eighth |
| DateText.FormatDateFields | main.go:104 | that text is four digits worth the year, two worth the month and two worth the day |
| DateText.ParseDate | main.go:189-194 | a due field is accepted only if it is a real date with a four-digit year whose `YYYY-MM-DD` text is exactly the field |
| DateText.ParseOfFormat | main.go:189-194 | every date with a four-digit year is accepted back from its `YYYY-MM-DD` text |
| DateText.TextOrderIsDateOrder | main.go:120-124 | the store's text comparison `due <= date()` holds exactly when the due date is on or before today |
| KeyOrder.Ascending | main.go:113 | `order by id` lists every id exactly once, strictly increasing |
| KeyOrder.AscendingWithLargest | main.go:99-100 | an id larger than all others is listed last, after the others in their old order |
| WordStore.IsDue | main.go:123 | a card is due exactly when its due text sorts on or before today's text |
| WordStore.NextId | main.go:99-100 | a new row's id is larger than every existing id: 1 in an empty table, else one more than an existing id |
| WordStore.Insert | main.go:108-118 | an insert adds one row under the fresh id and leaves every other row as it was |
| WordStore.AddCard | main.go:98-110 | `add` inserts exactly the card with the given front and back, box 0, due today, under the fresh id, and changes no other row |
| WordStore.AddFromInput | main.go:138-145 | with two lines of input `add` inserts one new row holding front then back, in box 0 and due today; with fewer it inserts nothing; no existing row changes |
| WordStore.Review | main.go:126-130 | the review write changes only the reviewed card, box and due together, to the rule's box and today plus the rule's interval; it panics exactly when the rule does; it is refused exactly when the interval is negative or the date passes 9999-12-31; a written card holds what a review today leaves behind |
| WordStore.CorrectReview | main.go:120-130 | after a correct review from box b in 0..61 the card is in box b+1, due exactly 2^(b+1) days after today, so it is no longer due today |
| WordStore.Box62Review | main.go:228-236 | a correct review from box 62 is refused by the store |
| WordStore.HighBoxReview | main.go:228-236 | a correct review from box 63 up to the largest `int` less one raises the box and leaves the card due today |
| WordStore.FailedReview | main.go:228-236 | a failed review always succeeds, sets box 0 and due today, so the card is due again the same day |
| WordStore.SelectDue | main.go:120-124 | selection returns a card that is due today, or none exactly when no card is due |
| Answer.Lower | main.go:87 | lower-casing keeps the length, leaves no letter A-Z, and changes no other character |
| Answer.DecisiveReplies | main.go:85-95 | after lower-casing, the replies `confirm` acts on are exactly "", y, Y, n, N; empty gives the default, y/Y yes, n/N no |
| Answer.Confirm | main.go:79-96 | `confirm` answers with the verdict of the first decisive line, consuming input up to it; with none it meets end of input |
| Answer.Judge | main.go:217-225 | an exact, case-sensitive match is correct without reading more input; otherwise the verdict is `confirm` with default no |
| Answer.ConfirmDeterministic | main.go:85-95 | `confirm` has only one possible outcome for a given input |
| Answer.FirstReplyDecides | main.go:85-95 | a decisive first reply gives its verdict and leaves the rest unread |
| Answer.EmptyReplyTakesDefault | main.go:87-89 | an empty reply returns the default at once |
| Answer.OtherReplyIgnored | main.go:85-95 | any other reply is ignored and the outcome is that of the remaining input |
| Study.Session | main.go:200-237 | a session keeps ids, fronts and backs; it changes only cards due at the start, each to what a review today leaves behind; it ends "done for today" only when no card is due, and reviews nothing when none is due; it judges a card exactly when one is due and there is input, so with no input nothing changes; the first card judged was due, and a right first answer to it raises it one box, due 2^(box+1) days later, unless that write is refused; with a single due card a right answer ends the session with the card raised, and a declined wrong answer resets it to box 0, due today, and input then ends the session |
| Transfer.ExportRecord | main.go:158 | an exported row has four fields: front, back, a box Atoi reads back, and a due text the date layout reads back |
| Transfer.Export | main.go:147-162 | one four-field record per row |
| Transfer.ExportListing | main.go:112-114 | record i of the export is the row with the i-th smallest id |
| Transfer.ExportInIdOrder | main.go:112-114 | every card is exported at the position of its id among the ids in ascending order, so of two cards the one with the smaller id comes first |
| Transfer.ExportAfterInsert | main.go:112-114 | a newly inserted card is exported last, after all older cards in their old order |
| Transfer.CheckRecord | main.go:178-194 | a record is accepted iff it has 4 fields, field 3 passes Atoi and field 4 is a `YYYY-MM-DD` date; the card then holds exactly those values; otherwise the first failing check is the reason |
| Transfer.AcceptedReexports | main.go:196 | an accepted record exports back to itself, except that the box is written in its shortest spelling |
| Transfer.ImportFrom | main.go:164-198 | import never changes or removes a row that was already in the table |
| Transfer.ImportStep | main.go:170-197 | one turn of the loop on a record of the expected width inserts its card if it is accepted and adds its warning if not |
| Transfer.SkippedAreRejected | main.go:178-194 | every warning carries the number of a rejected record and the reason it was rejected for |
| Transfer.RejectedAreSkipped | main.go:178-194 | every rejected record gets a warning with its number and reason |
| Transfer.ImportUniform | main.go:170-197 | with one field count throughout, import finishes, inserts exactly the accepted records in input order, and warns about exactly the rejected ones, in order; with all accepted it warns about none |
| Transfer.ImportStopsAtWidthChange | main.go:170-176 | a record whose field count differs from the expected one stops the import at that record's number, with the earlier records' rows inserted and their warnings given |
| Transfer.ImportAbortsOnWidthChange | main.go:168-176 | a record whose field count differs from the first record's aborts the import at that record instead of being skipped; the rows and warnings of the records before it stay |
| Transfer.Import | main.go:164-198 | import finishes exactly when every record has the first record's field count; then it has inserted the accepted records in input order and warned about the rejected ones; rows already there never change |
| Transfer.BadRecordSkipped | main.go:178-194 | a rejected record leaves the table exactly as if it had not been in the input |
| Transfer.ExportedRecordAccepted | main.go:178-196 | importing an exported record gives back the same card |
| Transfer.RoundTrip | main.go:147-197 | exporting a table and importing the records into a new table finishes with no warnings and reproduces every card's front, back, box and due, in the same order |

## Left out

- SQLite plumbing: opening the database, `neu`'s `create table`, which fails
  if the table exists, and statement execution and its errors. The table is a
  map, and errors of the store itself are not modelled.
- The `%d` formatting of the interval into the SQL text. The interval is a
  number passed to `AddDays`. A negative interval, whose modifier SQLite
  cannot read, is a refused write (`NullDue`) without building the text.
- Terminal I/O: printing prompts and messages, the warning texts, and `read`
  ending the process with status 0 at end of input. End of input is an
  outcome (`InputClosed`, `None`).
- The source creates a fresh buffered scanner for each `read`. When standard
  input is not a terminal, such a scanner can swallow lines meant for the
  next read. The model reads exactly one line per prompt.
- CLI dispatch in `main`, `usage`, and the exit codes of `check` (I/O and
  process control).
- CSV quoting and escaping by `encoding/csv`. Records are already-split field
  sequences. Reader errors other than a changed field count (bad quoting)
  are not modelled. The reader's numbers count records, not physical lines.
- The clock. "Today" is a parameter, the same day for the whole session.
  SQLite's `date('now')` is a UTC date.
- Answer.Lower: folds only ASCII letters, where `strings.ToLower` folds all of
  Unicode. No decision changes, because no character other than Y and N
  lower-cases to y or n.
- Study.Session: ties an answer to its card's change for the first card
  judged, and for every round only when a single card is due. Which due card
  each later round picks is unspecified (see SelectDue), so which answer
  meets which card is not stated. Every change is still bounded by what a
  review today can leave behind.
- WordStore.SelectDue: does not say which due card comes back, or that
  repeated calls return the same one. The query has no `order by`, so the
  code promises neither.
- Date parsing is modelled only for the DateOnly layout `2006-01-02`, not
  `time.Parse` in general. Dates before year 0000 never arise: the clock and
  every accepted field have four-digit years, and due dates only move forward
  from today.

=== FILE: answer.dfy ===
/** Turning what the learner types into a verdict: an exact match is correct
    at once; otherwise the `confirm` prompt ("Advance [yN]?") decides, reading
    lines until one of them is an answer it understands. Input is the
    sequence of lines still to be read; running out of it is end of input. */
module Answer {

  import opened Maybe

  function LowerChar(c: char): char {
    if 'A' <= c <= 'Z' then (c as int + 32) as char else c
  }

  /** `strings.ToLower`, on the letters that matter here (see `DecisiveReplies`). */
  function Lower(s: string): (t: string)
    ensures |t| == |s|
    ensures forall i :: 0 <= i < |s| ==> t[i] == LowerChar(s[i])
    ensures forall i :: 0 <= i < |t| ==> !('A' <= t[i] <= 'Z')
    ensures forall i :: 0 <= i < |s| && !('A' <= s[i] <= 'Z') ==> t[i] == s[i]
  {
    seq(|s|, i requires 0 <= i < |s| => LowerChar(s[i]))
  }

  /** A reply `confirm` acts on: empty, "y" or "n" once lower-cased. */
  predicate Decisive(line: string) {
    var l := Lower(line);
    l == "" || l == "y" || l == "n"
  }

  /** What a decisive reply means: empty takes the default. */
  function Verdict(line: string, default: bool): bool
    requires Decisive(line)
  {
    var l := Lower(line);
    if l == "" then default else l == "y"
  }

  /** Line `i` is the first decisive one. */
  predicate FirstDecisive(lines: seq<string>, i: int) {
    && 0 <= i < |lines|
    && Decisive(lines[i])
    && forall j :: 0 <= j < i ==> !Decisive(lines[j])
  }

  /** What `confirm` does with `lines`: answers with the verdict of the first
      decisive line, having read up to and including it; with no decisive
      line it reads everything and meets end of input (`None`). */
  ghost predicate ConfirmOutcome(lines: seq<string>, default: bool, answer: Option<bool>, rest: seq<string>) {
    || (answer.Some? && exists i :: FirstDecisive(lines, i) && answer.value == Verdict(lines[i], default) && rest == lines[i + 1..])
    || (answer.None? && rest == [] && forall j :: 0 <= j < |lines| ==> !Decisive(lines[j]))
  }

  /** The replies that decide are exactly "", "y", "Y", "n" and "N". */
  lemma DecisiveReplies(line: string, default: bool)
    ensures Decisive(line) <==> line in {"", "y", "Y", "n", "N"}
    ensures line == "" ==> Verdict(line, default) == default
    ensures line == "y" || line == "Y" ==> Verdict(line, default)
    ensures line == "n" || line == "N" ==> !Verdict(line, default)
  {
    var l := Lower(line);
    if |line| == 1 {
      assert l == [LowerChar(line[0])];
      assert line == [line[0]];
    }
  }

  /** The `confirm` loop. */
  method Confirm(lines: seq<string>, default: bool) returns (answer: Option<bool>, rest: seq<string>)
    ensures ConfirmOutcome(lines, default, answer, rest)
    ensures |rest| <= |lines| && rest == lines[|lines| - |rest|..]
  {
    var k := 0;
    while k < |lines|
      invariant 0 <= k <= |lines|
      invariant forall j :: 0 <= j < k ==> !Decisive(lines[j])
    {
      var got := Lower(lines[k]);
      if got == "" {
        assert FirstDecisive(lines, k);
        return Some(default), lines[k + 1..];
      } else if got == "y" {
        assert FirstDecisive(lines, k);
        return Some(true), lines[k + 1..];
      } else if got == "n" {
        assert FirstDecisive(lines, k);
        return Some(false), lines[k + 1..];
      }
      k := k + 1;
    }
    return None, [];
  }

  /** The answer check of a study session: exact, case-sensitive equality with
      the back of the card is correct without a prompt; anything else shows the
      wanted answer and asks `confirm` with default "no". */
  method Judge(back: string, got: string, lines: seq<string>) returns (correct: Option<bool>, rest: seq<string>)
    ensures got == back ==> correct == Some(true) && rest == lines
    ensures got != back ==> ConfirmOutcome(lines, false, correct, rest)
    ensures |rest| <= |lines|
  {
    if got == back {
      return Some(true), lines;
    }
    correct, rest := Confirm(lines, false);
  }

  /** `confirm` has one outcome for each input. */
  lemma ConfirmDeterministic(lines: seq<string>, default: bool, a1: Option<bool>, r1: seq<string>, a2: Option<bool>, r2: seq<string>)
    requires ConfirmOutcome(lines, default, a1, r1)
    requires ConfirmOutcome(lines, default, a2, r2)
    ensures a1 == a2 && r1 == r2
  {
    if a1.Some? && a2.Some? {
      var i1 :| FirstDecisive(lines, i1) && a1.value == Verdict(lines[i1], default) && r1 == lines[i1 + 1..];
      var i2 :| FirstDecisive(lines, i2) && a2.value == Verdict(lines[i2], default) && r2 == lines[i2 + 1..];
      assert i1 == i2;
    }
  }

  /** A decisive first reply decides at once, leaving the rest unread. */
  lemma FirstReplyDecides(line: string, rest: seq<string>, default: bool)
    requires Decisive(line)
    ensures ConfirmOutcome([line] + rest, default, Some(Verdict(line, default)), rest)
  {
    var lines := [line] + rest;
    assert lines[0] == line;
    assert FirstDecisive(lines, 0);
    assert lines[1..] == rest;
  }

  /** An empty reply takes the default at once. */
  lemma EmptyReplyTakesDefault(rest: seq<string>, default: bool)
    ensures ConfirmOutcome([""] + rest, default, Some(default), rest)
  {
    var lines := [""] + rest;
    assert Lower("") == "";
    assert FirstDecisive(lines, 0);
    assert lines[1..] == rest;
  }

  /** Behind a reply that does not decide, the first decisive line of the
      rest is the first decisive line of the whole input, one place later. */
  lemma FirstDecisiveBehind(line: string, rest: seq<string>, i: int)
    requires !Decisive(line)
    ensures !FirstDecisive([line] + rest, 0)
    ensures FirstDecisive([line] + rest, i + 1) <==> FirstDecisive(rest, i)
  {
    var lines := [line] + rest;
    if FirstDecisive(lines, i + 1) {
      forall j | 0 <= j < i
        ensures !Decisive(rest[j])
      {
        assert rest[j] == lines[j + 1];
      }
    }
    if FirstDecisive(rest, i) {
      forall j | 0 <= j < i + 1
        ensures !Decisive(lines[j])
      {
        if j > 0 {
          assert lines[j] == rest[j - 1];
        }
      }
    }
  }

  /** An answer read from the whole input, behind a reply that does not
      decide, is an answer read from the rest. */
  lemma SomeOutcomeDropsReply(line: string, rest: seq<string>, default: bool, a: bool, after: seq<string>)
    requires !Decisive(line)
    requires ConfirmOutcome([line] + rest, default, Some(a), after)
    ensures ConfirmOutcome(rest, default, Some(a), after)
  {
    var lines := [line] + rest;
    var i :| FirstDecisive(lines, i) && a == Verdict(lines[i], default) && after == lines[i + 1..];
    FirstDecisiveBehind(line, rest, 0);
    FirstDecisiveBehind(line, rest, i - 1);
    assert lines[i] == rest[i - 1] && lines[i + 1..] == rest[i..];
  }

  /** An answer read from the rest is still the answer once a reply that does
      not decide is put in front. */
  lemma SomeOutcomeKeepsReply(line: string, rest: seq<string>, default: bool, a: bool, after: seq<string>)
    requires !Decisive(line)
    requires ConfirmOutcome(rest, default, Some(a), after)
    ensures ConfirmOutcome([line] + rest, default, Some(a), after)
  {
    var lines := [line] + rest;
    var i :| FirstDecisive(rest, i) && a == Verdict(rest[i], default) && after == rest[i + 1..];
    FirstDecisiveBehind(line, rest, i);
    assert lines[i + 1] == rest[i] && lines[i + 2..] == rest[i + 1..];
  }

  /** Behind a reply that does not decide, the whole input has no decisive
      line exactly when the rest has none. */
  lemma NoneOutcomeBehind(line: string, rest: seq<string>)
    requires !Decisive(line)
    ensures (forall j :: 0 <= j < |[line] + rest| ==> !Decisive(([line] + rest)[j]))
        <==> (forall j :: 0 <= j < |rest| ==> !Decisive(rest[j]))
  {
    var lines := [line] + rest;
    if forall j :: 0 <= j < |rest| ==> !Decisive(rest[j]) {
      forall j | 0 <= j < |lines|
        ensures !Decisive(lines[j])
      {
        if j > 0 {
          assert lines[j] == rest[j - 1];
        }
      }
    }
    if forall j :: 0 <= j < |lines| ==> !Decisive(lines[j]) {
      forall j | 0 <= j < |rest|
        ensures !Decisive(rest[j])
      {
        assert rest[j] == lines[j + 1];
      }
    }
  }

  /** A reply other than "", y or n is ignored and the prompt is repeated. */
  lemma OtherReplyIgnored(line: string, rest: seq<string>, default: bool, answer: Option<bool>, after: seq<string>)
    requires !Decisive(line)
    ensures ConfirmOutcome([line] + rest, default, answer, after) <==> ConfirmOutcome(rest, default, answer, after)
  {
    match answer
    case Some(a) =>
      if ConfirmOutcome([line] + rest, default, answer, after) {
        SomeOutcomeDropsReply(line, rest, default, a, after);
      }
      if ConfirmOutcome(rest, default, answer, after) {
        SomeOutcomeKeepsReply(line, rest, default, a, after);
      }
    case None => NoneOutcomeBehind(line, rest);
  }
}

=== FILE: calendar.dfy ===
/** Calendar dates without a time of day, in the proleptic Gregorian calendar
    that SQLite's `date()` and Go's `time` package both use. Adding days is
    defined as stepping to the next day that many times; `DayNumber` is an
    independent count of days since 0000-01-01 that the stepping agrees with. */
module Calendar {

  datatype Date = Date(year: int, month: int, day: int)

  predicate IsLeapYear(y: int) {
    y % 4 == 0 && (y % 100 != 0 || y % 400 == 0)
  }

  function DaysInMonth(y: int, m: int): (n: int)
    requires 1 <= m <= 12
    ensures 28 <= n <= 31
    ensures m == 2 ==> (n == 29 <==> IsLeapYear(y))
  {
    if m == 2 then (if IsLeapYear(y) then 29 else 28)
    else if m == 4 || m == 6 || m == 9 || m == 11 then 30
    else 31
  }

  function DaysInYear(y: int): int {
    if IsLeapYear(y) then 366 else 365
  }

  /** A real calendar day: month 1..12 and a day that month has. */
  predicate Valid(d: Date) {
    1 <= d.month <= 12 && 1 <= d.day <= DaysInMonth(d.year, d.month)
  }

  /** Chronological order: year first, then month, then day. */
  predicate Before(a: Date, b: Date) {
    || a.year < b.year
    || (a.year == b.year && a.month < b.month)
    || (a.year == b.year && a.month == b.month && a.day < b.day)
  }

  predicate OnOrBefore(a: Date, b: Date) {
    a == b || Before(a, b)
  }

  /** The following calendar day. */
  function NextDay(d: Date): (r: Date)
    requires Valid(d)
    ensures Valid(r) && Before(d, r)
  {
    if d.day < DaysInMonth(d.year, d.month) then d.(day := d.day + 1)
    else if d.month < 12 then Date(d.year, d.month + 1, 1)
    else Date(d.year + 1, 1, 1)
  }

  /** The date `n` days after `d` (SQLite's `date(d, '+n days')`). */
  function AddDays(d: Date, n: nat): (r: Date)
    requires Valid(d)
    ensures Valid(r)
    ensures n == 0 <==> r == d
    ensures n > 0 ==> Before(d, r)
    ensures r.year >= d.year
    decreases n
  {
    if n == 0 then d else AddDays(NextDay(d), n - 1)
  }

  function DaysBeforeYear(y: nat): nat {
    if y == 0 then 0 else DaysBeforeYear(y - 1) + DaysInYear(y - 1)
  }

  /** Days in the months of year `y` before month `m`; `m == 13` gives the whole year. */
  function DaysBeforeMonth(y: int, m: int): nat
    requires 1 <= m <= 13
  {
    if m == 1 then 0 else DaysBeforeMonth(y, m - 1) + DaysInMonth(y, m - 1)
  }

  /** Days elapsed since 0000-01-01. */
  function DayNumber(d: Date): int
    requires Valid(d) && d.year >= 0
  {
    DaysBeforeYear(d.year) + DaysBeforeMonth(d.year, d.month) + d.day - 1
  }

  lemma MonthsMakeYear(y: int)
    ensures DaysBeforeMonth(y, 13) == DaysInYear(y)
  {
    assert DaysBeforeMonth(y, 2) == 31;
    assert DaysBeforeMonth(y, 3) == 31 + DaysInMonth(y, 2);
    assert DaysBeforeMonth(y, 4) == 62 + DaysInMonth(y, 2);
    assert DaysBeforeMonth(y, 5) == 92 + DaysInMonth(y, 2);
    assert DaysBeforeMonth(y, 6) == 123 + DaysInMonth(y, 2);
    assert DaysBeforeMonth(y, 7) == 153 + DaysInMonth(y, 2);
    assert DaysBeforeMonth(y, 8) == 184 + DaysInMonth(y, 2);
    assert DaysBeforeMonth(y, 9) == 215 + DaysInMonth(y, 2);
    assert DaysBeforeMonth(y, 10) == 245 + DaysInMonth(y, 2);
    assert DaysBeforeMonth(y, 11) == 276 + DaysInMonth(y, 2);
    assert DaysBeforeMonth(y, 12) == 306 + DaysInMonth(y, 2);
    assert DaysBeforeMonth(y, 13) == 337 + DaysInMonth(y, 2);
  }

  lemma {:induction false} DaysBeforeMonthGrows(y: int, m1: int, m2: int)
    requires 1 <= m1 <= m2 <= 13
    ensures DaysBeforeMonth(y, m1) <= DaysBeforeMonth(y, m2)
    decreases m2 - m1
  {
    if m1 < m2 {
      DaysBeforeMonthGrows(y, m1, m2 - 1);
    }
  }

  lemma {:induction false} DaysBeforeYearGrows(y1: nat, y2: nat)
    requires y1 <= y2
    ensures DaysBeforeYear(y1) <= DaysBeforeYear(y2)
    decreases y2 - y1
  {
    if y1 < y2 {
      DaysBeforeYearGrows(y1, y2 - 1);
    }
  }

  /** A date's day number lies inside its own year. */
  lemma DayNumberWithinYear(d: Date)
    requires Valid(d) && d.year >= 0
    ensures DaysBeforeYear(d.year) <= DayNumber(d) < DaysBeforeYear(d.year + 1)
  {
    DaysBeforeMonthGrows(d.year, d.month + 1, 13);
    MonthsMakeYear(d.year);
  }

  /** Stepping to the next day adds exactly one to the day number. */
  lemma NextDayNumber(d: Date)
    requires Valid(d) && d.year >= 0
    ensures DayNumber(NextDay(d)) == DayNumber(d) + 1
  {
    if d.day == DaysInMonth(d.year, d.month) && d.month == 12 {
      MonthsMakeYear(d.year);
    }
  }

  /** AddDays moves exactly `n` days along the day count. */
  lemma {:induction false} AddDaysNumber(d: Date, n: nat)
    requires Valid(d) && d.year >= 0
    ensures DayNumber(AddDays(d, n)) == DayNumber(d) + n
    decreases n
  {
    if n > 0 {
      NextDayNumber(d);
      AddDaysNumber(NextDay(d), n - 1);
    }
  }

  /** Chronological order of dates is the order of their day numbers, so the
      date comparison and the day count never disagree. */
  lemma BeforeIffSmallerDayNumber(a: Date, b: Date)
    requires Valid(a) && a.year >= 0
    requires Valid(b) && b.year >= 0
    ensures Before(a, b) <==> DayNumber(a) < DayNumber(b)
  {
    if Before(a, b) {
      BeforeHasSmallerDayNumber(a, b);
    } else if a != b {
      BeforeHasSmallerDayNumber(b, a);
    }
  }

  lemma BeforeHasSmallerDayNumber(a: Date, b: Date)
    requires Valid(a) && a.year >= 0
    requires Valid(b) && b.year >= 0
    requires Before(a, b)
    ensures DayNumber(a) < DayNumber(b)
  {
    if a.year < b.year {
      DayNumberWithinYear(a);
      DayNumberWithinYear(b);
      DaysBeforeYearGrows(a.year + 1, b.year);
    } else if a.month < b.month {
      DaysBeforeMonthGrows(a.year, a.month + 1, b.month);
    }
  }
}

=== FILE: date_text.dfy ===
/** Dates as the store keeps them: `YYYY-MM-DD` text, which is what SQLite's
    `date()` produces and what Go's `time.Parse(time.DateOnly, …)` accepts
    (the `full-date` of section 5.6 of RFC 3339). The store compares these
    strings byte by byte; `TextOrderIsDateOrder` shows that this agrees with
    chronological order. */
module DateText {

  import opened Maybe
  import opened Decimal
  import opened Calendar

  /** Dates that have a `YYYY-MM-DD` spelling: a four-digit year. */
  predicate InTextRange(d: Date) {
    Valid(d) && 0 <= d.year <= 9999
  }

  function Pad2(n: nat): (s: string)
    requires n < 100
    ensures |s| == 2 && AllDigits(s)
  {
    [DigitChar(n / 10), DigitChar(n % 10)]
  }

  function Pad4(n: nat): (s: string)
    requires n < 10000
    ensures |s| == 4 && AllDigits(s)
  {
    Pad2(n / 100) + Pad2(n % 100)
  }

  function FormatDate(d: Date): (s: string)
    requires InTextRange(d)
    ensures |s| == 10 && s[4] == '-' && s[7] == '-'
  {
    Pad4(d.year) + "-" + Pad2(d.month) + "-" + Pad2(d.day)
  }

  /** The layout "2006-01-02": four digits, '-', two digits, '-', two digits,
      nothing after; then the month must be 1..12 and the day must exist in
      that month of that year. */
  function ParseDate(s: string): (r: Option<Date>)
    ensures r.Some? ==> InTextRange(r.value) && FormatDate(r.value) == s
  {
    if |s| != 10 || s[4] != '-' || s[7] != '-' then None
    else if !AllDigits(s[0..4]) || !AllDigits(s[5..7]) || !AllDigits(s[8..10]) then None
    else
      var d := Date(DigitsValue(s[0..4]), DigitsValue(s[5..7]), DigitsValue(s[8..10]));
      if !(1 <= d.month <= 12) then None
      else if !(1 <= d.day <= DaysInMonth(d.year, d.month)) then None
      else
        Pad4OfValue(s[0..4]);
        Pad2OfValue(s[5..7]);
        Pad2OfValue(s[8..10]);
        assert s == s[0..4] + "-" + s[5..7] + "-" + s[8..10];
        Some(d)
  }

  lemma DigitsValueSnoc(s: string, c: char)
    requires AllDigits(s) && IsDigit(c)
    ensures AllDigits(s + [c])
    ensures DigitsValue(s + [c]) == 10 * DigitsValue(s) + DigitValue(c)
  {
    assert (s + [c])[..|s|] == s;
  }

  /** The value of two digits. */
  lemma TwoDigitsValue(t: string)
    requires |t| == 2 && AllDigits(t)
    ensures DigitsValue(t) == 10 * DigitValue(t[0]) + DigitValue(t[1])
  {
    DigitsValueSnoc([], t[0]);
    DigitsValueSnoc([t[0]], t[1]);
    assert t == [t[0]] + [t[1]];
  }

  lemma Pad2OfValue(t: string)
    requires |t| == 2 && AllDigits(t)
    ensures DigitsValue(t) < 100 && Pad2(DigitsValue(t)) == t
  {
    TwoDigitsValue(t);
    assert t == [t[0]] + [t[1]];
  }

  /** Two digits appended to a digit string scale its value by a hundred. */
  lemma DigitsValueAppendPair(s: string, t: string)
    requires AllDigits(s) && |t| == 2 && AllDigits(t)
    ensures AllDigits(s + t)
    ensures DigitsValue(s + t) == 100 * DigitsValue(s) + DigitsValue(t)
  {
    var u := s + [t[0]];
    DigitsValueSnoc(s, t[0]);
    DigitsValueSnoc(u, t[1]);
    TwoDigitsValue(t);
    assert s + t == u + [t[1]];
  }

  lemma DivMod100(x: nat, y: nat)
    requires y < 100
    ensures (100 * x + y) / 100 == x && (100 * x + y) % 100 == y
  {
  }

  lemma Pad4OfValue(t: string)
    requires |t| == 4 && AllDigits(t)
    ensures DigitsValue(t) < 10000 && Pad4(DigitsValue(t)) == t
  {
    var hi, lo := t[0..2], t[2..4];
    assert t == hi + lo;
    DigitsValueAppendPair(hi, lo);
    Pad2OfValue(hi);
    Pad2OfValue(lo);
    DivMod100(DigitsValue(hi), DigitsValue(lo));
  }

  lemma ValueOfPad2(n: nat)
    requires n < 100
    ensures DigitsValue(Pad2(n)) == n
  {
    DigitsValueSnoc([], DigitChar(n / 10));
    DigitsValueSnoc([DigitChar(n / 10)], DigitChar(n % 10));
    assert Pad2(n) == [DigitChar(n / 10)] + [DigitChar(n % 10)];
  }

  lemma ValueOfPad4(n: nat)
    requires n < 10000
    ensures DigitsValue(Pad4(n)) == n
  {
    DigitsValueAppendPair(Pad2(n / 100), Pad2(n % 100));
    ValueOfPad2(n / 100);
    ValueOfPad2(n % 100);
  }

  /** The `YYYY-MM-DD` text spells the date: four digits worth the year, two
      worth the month and two worth the day, separated by '-'. */
  lemma FormatDateFields(d: Date)
    requires InTextRange(d)
    ensures var s := FormatDate(d);
      && AllDigits(s[0..4]) && DigitsValue(s[0..4]) == d.year
      && AllDigits(s[5..7]) && DigitsValue(s[5..7]) == d.month
      && AllDigits(s[8..10]) && DigitsValue(s[8..10]) == d.day
  {
    var s := FormatDate(d);
    assert s[0..4] == Pad4(d.year);
    assert s[5..7] == Pad2(d.month);
    assert s[8..10] == Pad2(d.day);
    ValueOfPad4(d.year);
    ValueOfPad2(d.month);
    ValueOfPad2(d.day);
  }

  /** Every date with a four-digit year survives formatting and parsing. */
  lemma ParseOfFormat(d: Date)
    requires InTextRange(d)
    ensures ParseDate(FormatDate(d)) == Some(d)
  {
    FormatDateFields(d);
  }

  /** Byte-wise text comparison, SQLite's default BINARY collation: the first
      differing character decides, and a proper prefix sorts first. */
  predicate TextLe(s: string, t: string)
    decreases |s|
  {
    s == [] || (t != [] && (s[0] < t[0] || (s[0] == t[0] && TextLe(s[1..], t[1..]))))
  }

  /** Comparing two texts whose heads have the same length: the heads decide
      unless they are equal, in which case the tails do. */
  lemma {:induction false} TextLeConcat(x: string, u: string, y: string, v: string)
    requires |x| == |y|
    ensures TextLe(x + u, y + v) <==> (x == y && TextLe(u, v)) || (x != y && TextLe(x, y))
    decreases |x|
  {
    if x != [] {
      assert (x + u)[1..] == x[1..] + u;
      assert (y + v)[1..] == y[1..] + v;
      TextLeConcat(x[1..], u, y[1..], v);
      if x[0] == y[0] {
        assert x == y <==> x[1..] == y[1..];
      }
    } else {
      assert x + u == u && y + v == v;
    }
  }

  /** On digit strings of one length, text order is numeric order. */
  lemma {:induction false} DigitTextOrder(s: string, t: string)
    requires |s| == |t| && AllDigits(s) && AllDigits(t)
    ensures TextLe(s, t) <==> DigitsValue(s) <= DigitsValue(t)
    ensures s == t <==> DigitsValue(s) == DigitsValue(t)
    decreases |s|
  {
    if s != [] {
      var n := |s| - 1;
      var s', t' := s[..n], t[..n];
      assert s == s' + [s[n]] && t == t' + [t[n]];
      DigitTextOrder(s', t');
      DigitsValueSnoc(s', s[n]);
      DigitsValueSnoc(t', t[n]);
      TextLeConcat(s', [s[n]], t', [t[n]]);
      assert TextLe([s[n]], [t[n]]) <==> s[n] <= t[n] by {
        assert [s[n]][1..] == [] && [t[n]][1..] == [];
      }
      assert s == t <==> s' == t' && s[n] == t[n];
    }
  }

  lemma TextLeTwoDigits(m: nat, n: nat)
    requires m < 100 && n < 100
    ensures TextLe(Pad2(m), Pad2(n)) <==> m <= n
    ensures Pad2(m) == Pad2(n) <==> m == n
  {
    ValueOfPad2(m);
    ValueOfPad2(n);
    DigitTextOrder(Pad2(m), Pad2(n));
  }

  lemma TextLeFourDigits(m: nat, n: nat)
    requires m < 10000 && n < 10000
    ensures TextLe(Pad4(m), Pad4(n)) <==> m <= n
    ensures Pad4(m) == Pad4(n) <==> m == n
  {
    ValueOfPad4(m);
    ValueOfPad4(n);
    DigitTextOrder(Pad4(m), Pad4(n));
  }

  /** After equal years, the month decides and then the day. */
  lemma TextLeMonthDay(am: nat, ad: nat, bm: nat, bd: nat)
    requires am < 100 && ad < 100 && bm < 100 && bd < 100
    ensures TextLe("-" + Pad2(am) + "-" + Pad2(ad), "-" + Pad2(bm) + "-" + Pad2(bd))
      <==> am < bm || (am == bm && ad <= bd)
  {
    TextLeTwoDigits(am, bm);
    TextLeTwoDigits(ad, bd);
    TextLeConcat("-", Pad2(am) + "-" + Pad2(ad), "-", Pad2(bm) + "-" + Pad2(bd));
    TextLeConcat(Pad2(am), "-" + Pad2(ad), Pad2(bm), "-" + Pad2(bd));
    TextLeConcat("-", Pad2(ad), "-", Pad2(bd));
    assert "-" + Pad2(am) + "-" + Pad2(ad) == "-" + (Pad2(am) + "-" + Pad2(ad));
    assert "-" + Pad2(bm) + "-" + Pad2(bd) == "-" + (Pad2(bm) + "-" + Pad2(bd));
    assert Pad2(am) + "-" + Pad2(ad) == Pad2(am) + ("-" + Pad2(ad));
    assert Pad2(bm) + "-" + Pad2(bd) == Pad2(bm) + ("-" + Pad2(bd));
  }

  /** The store's `due <= date()` compares texts; on dates with four-digit
      years that is exactly chronological order. */
  lemma TextOrderIsDateOrder(a: Date, b: Date)
    requires InTextRange(a) && InTextRange(b)
    ensures OnOrBefore(a, b) <==> TextLe(FormatDate(a), FormatDate(b))
  {
    var ta := "-" + Pad2(a.month) + "-" + Pad2(a.day);
    var tb := "-" + Pad2(b.month) + "-" + Pad2(b.day);
    TextLeFourDigits(a.year, b.year);
    TextLeMonthDay(a.month, a.day, b.month, b.day);
    TextLeConcat(Pad4(a.year), ta, Pad4(b.year), tb);
    assert FormatDate(a) == Pad4(a.year) + ta;
    assert FormatDate(b) == Pad4(b.year) + tb;
  }
}

=== FILE: decimal.dfy ===
/** Decimal integers as text: `fmt.Sprint` of an `int` (used by export for the
    box column) and `strconv.Atoi` (used by import to read it back). */
module Decimal {

  import opened Maybe

  /** Go's `int` on the 64-bit platforms the tool targets. */
  const MinInt64: int := -0x8000_0000_0000_0000
  const MaxInt64: int := 0x7FFF_FFFF_FFFF_FFFF

  predicate InInt64(i: int) {
    MinInt64 <= i <= MaxInt64
  }

  /** A value of Go's `int`. */
  type Int64 = i: int | InInt64(i)

  function Magnitude(i: int): nat {
    if i < 0 then -i else i
  }

  predicate IsDigit(c: char) {
    '0' <= c <= '9'
  }

  predicate AllDigits(s: string) {
    forall i :: 0 <= i < |s| ==> IsDigit(s[i])
  }

  function DigitValue(c: char): (d: nat)
    requires IsDigit(c)
    ensures d < 10
  {
    c as int - '0' as int
  }

  function DigitChar(d: nat): (c: char)
    requires d < 10
    ensures IsDigit(c) && DigitValue(c) == d
  {
    ('0' as int + d) as char
  }

  /** The value of a run of decimal digits, most significant first. */
  function DigitsValue(s: string): nat
    requires AllDigits(s)
  {
    if s == [] then 0 else 10 * DigitsValue(s[..|s| - 1]) + DigitValue(s[|s| - 1])
  }

  /** The shortest decimal spelling of `n`: no leading zeros, "0" for zero. */
  function FormatNat(n: nat): (s: string)
    ensures 1 <= |s| && AllDigits(s)
    ensures n == 0 ==> s == "0"
    ensures n > 0 ==> s[0] != '0'
  {
    if n < 10 then [DigitChar(n)] else FormatNat(n / 10) + [DigitChar(n % 10)]
  }

  predicate AllZeros(z: string) {
    forall i :: 0 <= i < |z| ==> z[i] == '0'
  }

  /** A digit string in its shortest spelling: no leading zero unless it is "0". */
  predicate Canonical(u: string) {
    1 <= |u| && AllDigits(u) && (u[0] == '0' ==> |u| == 1)
  }

  /** The digits with their leading zeros dropped, keeping at least one. */
  function Trim(u: string): string {
    if 1 < |u| && u[0] == '0' then Trim(u[1..]) else u
  }

  /** What `strconv.Atoi` reads after an optional leading sign. */
  function Unsigned(s: string): string {
    if 0 < |s| && (s[0] == '-' || s[0] == '+') then s[1..] else s
  }

  /** `fmt.Sprint(i)` for an integer: a minus sign exactly for negatives, then
      the magnitude in its shortest spelling. */
  function FormatInt(i: int): (s: string)
    ensures 1 <= |s|
    ensures s[0] == '-' <==> i < 0
    ensures i >= 0 ==> AllDigits(s)
    ensures Canonical(Unsigned(s)) && DigitsValue(Unsigned(s)) == Magnitude(i)
  {
    DigitsValueOfFormat(Magnitude(i));
    if i < 0 then
      assert ("-" + FormatNat(-i))[0] == '-';
      assert Unsigned("-" + FormatNat(-i)) == FormatNat(-i);
      "-" + FormatNat(-i)
    else
      FormatNat(i)
  }

  /** An optional sign followed by at least one ASCII digit and nothing else. */
  predicate IsDecimalInteger(s: string) {
    var u := Unsigned(s);
    0 < |u| && AllDigits(u)
  }

  /** The number `s` spells, if it is well formed; the magnitude is not yet range-checked. */
  function SignedValue(s: string): int
    requires IsDecimalInteger(s)
  {
    if s[0] == '-' then -(DigitsValue(Unsigned(s)) as int) else DigitsValue(Unsigned(s))
  }

  /** `strconv.Atoi`: base 10, an optional '+' or '-', no underscores, no
      spaces, and a result that fits Go's 64-bit `int`. What it accepts is a
      sign, any number of leading zeros and the shortest spelling of the
      magnitude, with a minus sign before every negative value and before no
      positive one. */
  function Atoi(s: string): (r: Option<int>)
    ensures !IsDecimalInteger(s) ==> r.None?
    ensures r.Some? ==> InInt64(r.value)
    ensures r.Some? ==> IsDecimalInteger(s) && Trim(Unsigned(s)) == FormatNat(Magnitude(r.value))
    ensures r.Some? ==> (r.value < 0 ==> s[0] == '-') && (r.value > 0 ==> s[0] != '-')
  {
    if !IsDecimalInteger(s) then None
    else if InInt64(SignedValue(s)) then
      var u := Unsigned(s);
      TrimValue(u);
      FormatOfDigits(Trim(u));
      assert Magnitude(SignedValue(s)) == DigitsValue(u);
      Some(SignedValue(s))
    else None
  }

  /** Reading back a formatted natural number gives the number. */
  lemma {:induction false} DigitsValueOfFormat(n: nat)
    ensures DigitsValue(FormatNat(n)) == n
  {
    if n >= 10 {
      var s := FormatNat(n / 10);
      var t := s + [DigitChar(n % 10)];
      assert FormatNat(n) == t;
      assert t[..|t| - 1] == s;
      DigitsValueOfFormat(n / 10);
    }
  }

  /** A digit string that does not start with '0' spells a positive number. */
  lemma {:induction false} DigitsValuePositive(u: string)
    requires 1 <= |u| && AllDigits(u) && u[0] != '0'
    ensures DigitsValue(u) > 0
    decreases |u|
  {
    if |u| > 1 {
      var p := u[..|u| - 1];
      assert p[0] == u[0];
      DigitsValuePositive(p);
    }
  }

  /** Spelling out the value of a shortest spelling gives the spelling back. */
  lemma {:induction false} FormatOfDigits(u: string)
    requires Canonical(u)
    ensures FormatNat(DigitsValue(u)) == u
    decreases |u|
  {
    var last := u[|u| - 1];
    if |u| == 1 {
      assert u == [last];
    } else {
      var p := u[..|u| - 1];
      assert p[0] == u[0];
      DigitsValuePositive(p);
      FormatOfDigits(p);
      var n := DigitsValue(u);
      assert n / 10 == DigitsValue(p) && n % 10 == DigitValue(last);
      assert DigitChar(DigitValue(last)) == last;
      assert u == p + [last];
    }
  }

  /** A run of zeros is worth nothing. */
  lemma {:induction false} ZerosValue(z: string)
    requires AllZeros(z)
    ensures AllDigits(z) && DigitsValue(z) == 0
    decreases |z|
  {
    if z != [] {
      ZerosValue(z[..|z| - 1]);
    }
  }

  /** Leading zeros do not change the value. */
  lemma {:induction false} LeadingZerosValue(z: string, t: string)
    requires AllZeros(z) && AllDigits(t)
    ensures AllDigits(z + t) && DigitsValue(z + t) == DigitsValue(t)
    decreases |t|
  {
    ZerosValue(z);
    if t == [] {
      assert z + t == z;
    } else {
      var zt := z + t;
      assert zt[..|zt| - 1] == z + t[..|t| - 1];
      assert zt[|zt| - 1] == t[|t| - 1];
      LeadingZerosValue(z, t[..|t| - 1]);
    }
  }

  /** Trimming leading zeros gives the shortest spelling of the same value. */
  lemma {:induction false} TrimValue(u: string)
    requires 1 <= |u| && AllDigits(u)
    ensures Canonical(Trim(u)) && DigitsValue(Trim(u)) == DigitsValue(u)
    decreases |u|
  {
    if 1 < |u| && u[0] == '0' {
      assert u == [u[0]] + u[1..];
      LeadingZerosValue([u[0]], u[1..]);
      TrimValue(u[1..]);
    }
  }

  /** After a one-character sign, or none, `Unsigned` reads the digits. */
  lemma SignedParts(sign: string, t: string)
    requires sign == "" || sign == "+" || sign == "-"
    requires 1 <= |t| && AllDigits(t)
    ensures Unsigned(sign + t) == t && IsDecimalInteger(sign + t)
    ensures (sign + t)[0] == '-' <==> sign == "-"
  {
    if sign == "" {
      assert sign + t == t;
    } else {
      assert (sign + t)[0] == sign[0];
      assert (sign + t)[1..] == t;
    }
  }

  /** Behind its sign, a spelling is its zeros and digits, worth the digits. */
  lemma SpellingParts(sign: string, zeros: string, f: string)
    requires sign == "" || sign == "+" || sign == "-"
    requires AllZeros(zeros) && 1 <= |f| && AllDigits(f)
    ensures Unsigned(sign + zeros + f) == zeros + f
    ensures IsDecimalInteger(sign + zeros + f)
    ensures DigitsValue(zeros + f) == DigitsValue(f)
    ensures (sign + zeros + f)[0] == '-' <==> sign == "-"
  {
    LeadingZerosValue(zeros, f);
    assert sign + zeros + f == sign + (zeros + f);
    SignedParts(sign, zeros + f);
  }

  /** Every spelling Atoi's contract describes is accepted: an optional sign
      that agrees with the value, any run of zeros, then the magnitude. */
  lemma AtoiReadsSpelling(sign: string, zeros: string, v: int)
    requires sign == "" || sign == "+" || sign == "-"
    requires AllZeros(zeros)
    requires InInt64(v) && (v < 0 ==> sign == "-") && (v > 0 ==> sign != "-")
    ensures Atoi(sign + zeros + FormatNat(Magnitude(v))) == Some(v)
  {
    SpellingParts(sign, zeros, FormatNat(Magnitude(v)));
    DigitsValueOfFormat(Magnitude(v));
  }

  /** A magnitude beyond Go's range is refused whatever its sign and leading
      zeros: past 9223372036854775807, or past 9223372036854775808 after '-'. */
  lemma AtoiRejectsOverflow(sign: string, zeros: string, n: nat)
    requires sign == "" || sign == "+" || sign == "-"
    requires AllZeros(zeros)
    requires if sign == "-" then n > -MinInt64 else n > MaxInt64
    ensures Atoi(sign + zeros + FormatNat(n)) == None
  {
    SpellingParts(sign, zeros, FormatNat(n));
    DigitsValueOfFormat(n);
  }

  /** Atoi undoes fmt.Sprint on every 64-bit integer, so an exported box passes
      import validation and comes back unchanged. */
  lemma AtoiOfFormat(i: int)
    requires InInt64(i)
    ensures Atoi(FormatInt(i)) == Some(i)
  {
    if i < 0 {
      AtoiReadsSpelling("-", "", i);
      assert "-" + "" + FormatNat(Magnitude(i)) == FormatInt(i);
    } else {
      AtoiReadsSpelling("", "", i);
      assert "" + "" + FormatNat(Magnitude(i)) == FormatInt(i);
    }
  }

  /** Atoi takes a minus sign, so a negative number is accepted as a box. */
  lemma AtoiAcceptsNegative(n: nat)
    requires 0 < n <= MaxInt64
    ensures Atoi("-" + FormatNat(n)) == Some(-(n as int))
  {
    AtoiOfFormat(-(n as int));
  }
}

=== FILE: key_order.dfy ===
/** Ordering of row ids: the largest id (SQLite's rule for a new rowid) and
    the ids in ascending order (the export's `order by id`). */
module KeyOrder {

  lemma HasElement(ks: set<int>)
    requires ks != {}
    ensures exists k :: k in ks
  {
    if forall k :: k !in ks {
      assert false;
    }
  }

  lemma {:induction false} HasMax(ks: set<int>)
    requires ks != {}
    ensures exists m :: m in ks && forall k :: k in ks ==> k <= m
    decreases ks
  {
    HasElement(ks);
    var x :| x in ks;
    if ks != {x} {
      HasMax(ks - {x});
      var m :| m in ks - {x} && forall k :: k in ks - {x} ==> k <= m;
      var top := if x > m then x else m;
      forall k | k in ks
        ensures k <= top
      {
        if k != x {
          assert k in ks - {x};
        }
      }
    } else {
      assert forall k :: k in ks ==> k <= x;
    }
  }

  lemma {:induction false} HasMin(ks: set<int>)
    requires ks != {}
    ensures exists m :: m in ks && forall k :: k in ks ==> m <= k
    decreases ks
  {
    HasElement(ks);
    var x :| x in ks;
    if ks != {x} {
      HasMin(ks - {x});
      var m :| m in ks - {x} && forall k :: k in ks - {x} ==> m <= k;
      var bottom := if x < m then x else m;
      forall k | k in ks
        ensures bottom <= k
      {
        if k != x {
          assert k in ks - {x};
        }
      }
    } else {
      assert forall k :: k in ks ==> x <= k;
    }
  }

  function Max(ks: set<int>): (m: int)
    requires ks != {}
    ensures m in ks && forall k :: k in ks ==> k <= m
  {
    HasMax(ks);
    var m :| m in ks && forall k :: k in ks ==> k <= m;
    m
  }

  function Min(ks: set<int>): (m: int)
    requires ks != {}
    ensures m in ks && forall k :: k in ks ==> m <= k
  {
    HasMin(ks);
    var m :| m in ks && forall k :: k in ks ==> m <= k;
    m
  }

  /** The ids of `ks`, each once, smallest first. */
  function Ascending(ks: set<int>): (r: seq<int>)
    ensures |r| == |ks|
    ensures forall k :: k in ks <==> k in r
    ensures forall i, j :: 0 <= i < j < |r| ==> r[i] < r[j]
    decreases ks
  {
    if ks == {} then []
    else
      var m := Min(ks);
      [m] + Ascending(ks - {m})
  }

  /** An id larger than every existing one is listed last. */
  lemma {:induction false} AscendingWithLargest(ks: set<int>, k: int)
    requires forall j :: j in ks ==> j < k
    ensures Ascending(ks + {k}) == Ascending(ks) + [k]
    decreases ks
  {
    if ks == {} {
      assert ks + {k} == {k};
      assert Min({k}) == k;
      assert {k} - {k} == {};
    } else {
      var m := Min(ks);
      assert Min(ks + {k}) == m;
      assert (ks + {k}) - {m} == (ks - {m}) + {k};
      AscendingWithLargest(ks - {m}, k);
    }
  }
}

=== FILE: leitner.dfy ===
/** The Leitner update rule of a study session: the outcome of one review
    decides the card's next box and how many days until it is due again.
    The box is Go's 64-bit `int`, so `box++` and `1 << box` follow Go's
    two's-complement arithmetic. */
module Leitner {

  import opened Decimal

  /** The number of values of a 64-bit integer: Go's `int` arithmetic is
      exact modulo this. */
  const WordSize: int := 0x1_0000_0000_0000_0000

  function Pow2(n: nat): (p: nat)
    ensures p >= 1
  {
    if n == 0 then 1 else 2 * Pow2(n - 1)
  }

  lemma {:induction false} Pow2Add(a: nat, b: nat)
    ensures Pow2(a + b) == Pow2(a) * Pow2(b)
    decreases a
  {
    if a > 0 {
      Pow2Add(a - 1, b);
    }
  }

  lemma Pow2Grows(a: nat, b: nat)
    requires a <= b
    ensures Pow2(a) <= Pow2(b)
  {
    Pow2Add(a, b - a);
  }

  lemma Pow2Double(a: nat, v: nat)
    requires Pow2(a) == v
    ensures Pow2(a + a) == v * v
  {
    Pow2Add(a, a);
  }

  lemma Pow2At62()
    ensures Pow2(62) == 0x4000_0000_0000_0000
  {
    assert Pow2(1) == 2;
    Pow2Double(1, 2);
    Pow2Double(2, 4);
    Pow2Double(4, 16);
    Pow2Double(8, 256);
    Pow2Double(16, 0x1_0000);
    Pow2Double(32, 0x1_0000_0000);
    Pow2Add(62, 2);
  }

  lemma Pow2At63()
    ensures Pow2(63) == -MinInt64
  {
    Pow2At62();
  }

  lemma Pow2At64()
    ensures Pow2(64) == WordSize
  {
    Pow2At63();
  }

  /** A multiple of the word size is 0 in Go's `int` arithmetic. */
  lemma WordMultiple(k: int)
    ensures (WordSize * k) % WordSize == 0
  {
  }

  /** Go's `box++` on an `int`: one more, wrapping from the largest value to
      the smallest. */
  function Increment(box: Int64): (r: Int64)
    ensures (r - box - 1) % WordSize == 0
    ensures box < MaxInt64 ==> r == box + 1
  {
    if box == MaxInt64 then MinInt64 else assert InInt64(box); box + 1
  }

  /** Go's `1 << n` on an `int`: the 64-bit two's-complement reading of 2^n,
      so bit 63 makes it negative and every higher bit is shifted out. */
  function ShiftOne(n: nat): (v: Int64)
    ensures (v - Pow2(n)) % WordSize == 0
  {
    if n >= 64 then
      ShiftedOut(n);
      0
    else if n == 63 then
      Pow2At63();
      MinInt64
    else
      ShiftFits(n);
      Pow2(n)
  }

  lemma ShiftFits(n: nat)
    requires n <= 62
    ensures InInt64(Pow2(n))
  {
    Pow2Grows(n, 62);
    Pow2At62();
  }

  lemma ShiftedOut(n: nat)
    requires n >= 64
    ensures (0 - Pow2(n)) % WordSize == 0
  {
    Pow2At64();
    Pow2Add(64, n - 64);
    var k: int := Pow2(n - 64);
    assert 0 - Pow2(n) == WordSize * (-k);
    WordMultiple(-k);
  }

  /** The effect of one review. `NegativeShift` is Go's run-time panic for
      `1 << box` when the incremented box is negative: from a box of -2 or
      less (import accepts negative boxes) or from the largest `int`, where
      `box++` wraps. */
  datatype Step = Move(box: Int64, days: Int64) | NegativeShift

  /** A correct answer moves the card up one box and schedules it `1 << box`
      days out, the box taken after the increment; a wrong answer sends it
      back to box 0, due at once. */
  function Schedule(box: Int64, correct: bool): (s: Step)
    ensures !correct ==> s == Move(0, 0)
    ensures s.NegativeShift? <==> correct && (box < -1 || box == MaxInt64)
    ensures s.Move? ==> s.box >= 0
    ensures s.Move? && correct ==> s.box == box + 1 && (s.days - Pow2(s.box)) % WordSize == 0
  {
    if !correct then Move(0, 0)
    else
      var next := Increment(box);
      if next < 0 then NegativeShift else Move(next, ShiftOne(next))
  }

  /** From box `b` up to 61, a correct answer leads to box `b + 1` and an
      interval of `2^(b+1)` days, never less than two. */
  lemma CorrectAdvances(b: nat)
    requires b <= 61
    ensures Schedule(b, true).Move?
    ensures Schedule(b, true).box == b + 1 && Schedule(b, true).days == Pow2(b + 1)
    ensures Schedule(b, true).days >= 2
  {
  }

  /** Each step up the boxes doubles the interval, as long as it fits. */
  lemma IntervalDoubles(b: nat)
    requires b <= 60
    ensures Schedule(b + 1, true).days == 2 * Schedule(b, true).days
  {
  }

  /** A wrong answer resets any box, negative ones included, to 0 with no delay. */
  lemma FailureResets(b: Int64)
    ensures Schedule(b, false) == Move(0, 0)
  {
  }

  /** A card imported with box -1 advances to box 0 with a one-day interval. */
  lemma MinusOneAdvancesToZero()
    ensures Schedule(-1, true) == Move(0, 1)
  {
  }

  /** From box 62 the shift sets bit 63: the interval is the most negative
      `int`. */
  lemma Box62GoesNegative()
    ensures Schedule(62, true) == Move(63, MinInt64)
  {
  }

  /** From box 63 up, the shift count reaches 64 and the interval is 0 days:
      a correct answer leaves the card due today. */
  lemma HighBoxHasNoDelay(b: int)
    requires 63 <= b < MaxInt64
    ensures Schedule(b, true) == Move(b + 1, 0)
  {
  }

  /** From the largest `int`, `box++` wraps to the smallest and the shift by
      a negative count panics. */
  lemma TopBoxPanics()
    ensures Schedule(MaxInt64, true) == NegativeShift
  {
  }
}

=== FILE: maybe.dfy ===
/** An optional value: `None` stands for "nothing there" (no due card, a field
    that does not parse, end of input). */
module Maybe {

  datatype Option<+T> = None | Some(value: T)

}

=== FILE: study.dfy ===
/** A study session: repeatedly fetch some due card, read the learner's
    answer, judge it and write the card's new box and due date, until no card
    is due, input ends, or the write fails. `today` is the store's clock,
    the same day for the due test and for the new due dates. */
module Study {

  import opened Maybe
  import opened Calendar
  import opened Leitner
  import opened WordStore
  import opened Answer

  datatype SessionEnd =
    | DoneForToday   // "Done for today!", exit status 0
    | InputClosed    // end of input while prompting, exit status 0
    | ShiftPanicked  // Go's run-time panic on a negative shift count
    | StoreFailed    // the update was refused (the new due date is NULL), exit status 2

  /** Card `id` is the one card due today. */
  predicate OnlyDue(s: Store, today: DueDate, id: int) {
    && id in s && IsDue(s[id], today)
    && forall k :: k in s && k != id ==> !IsDue(s[k], today)
  }

  /** The learner types the back of the only due card, whose box is low
      enough for its interval to fit. */
  predicate AnswersRight(s: Store, today: DueDate, input: seq<string>, id: int) {
    OnlyDue(s, today, id) && 0 < |input| && input[0] == s[id].back && 0 <= s[id].box <= 61
  }

  /** The learner gets the only due card wrong, declines to advance it, and
      types nothing more. */
  predicate AnswersWrongThenStops(s: Store, today: DueDate, input: seq<string>, id: int) {
    && OnlyDue(s, today, id) && |input| == 2 && input[0] != s[id].back
    && Decisive(input[1]) && !Verdict(input[1], false)
  }

  /** No card of `t` is due today. */
  predicate NoneDue(t: Store, today: DueDate) {
    forall k :: k in t ==> !IsDue(t[k], today)
  }

  /** The table keeps its rows, fronts and backs; only cards due at the
      start change, and each holds what a review today leaves behind. */
  predicate Framed(s: Store, today: DueDate, t: Store) {
    && t.Keys == s.Keys
    && (forall id :: id in s ==> t[id].front == s[id].front && t[id].back == s[id].back)
    && (forall id :: id in s && !IsDue(s[id], today) ==> t[id] == s[id])
    && (forall id :: id in s && t[id] != s[id] ==> IsDue(s[id], today) && ReviewedToday(t[id], today))
  }

  /** The learner's first line is the back of card `id`, whose box is low
      enough for its interval to fit. */
  predicate FirstAnswerRight(s: Store, input: seq<string>, id: int) {
    id in s && 0 < |input| && input[0] == s[id].back && 0 <= s[id].box <= 61
  }

  /** Card `id` of `t` is card `id` of `s` after a correct review today: one
      box up, due `2^(box+1)` days from today. */
  predicate Advanced(s: Store, today: DueDate, t: Store, id: int) {
    && id in s && id in t && s[id].box >= 0
    && t[id].box == s[id].box + 1 && t[id].due == AddDays(today, Pow2(s[id].box + 1))
  }

  /** After the first review, of card `x`: it was due, some input was read,
      and a right first answer advanced it. */
  ghost predicate FirstReviewed(s: Store, today: DueDate, input: seq<string>, t: Store, x: int) {
    && x in s && IsDue(s[x], today) && input != []
    && (FirstAnswerRight(s, input, x) ==> Advanced(s, today, t, x))
  }

  /** `first` is the first card judged, set exactly once a review happened. */
  ghost predicate FirstSoFar(s: Store, today: DueDate, input: seq<string>, t: Store, rounds: nat, first: Option<int>) {
    && (first.None? <==> rounds == 0)
    && (first.Some? ==> FirstReviewed(s, today, input, t, first.value))
  }

  /** After a right answer to the only due card, the session has reviewed it
      once, raised its box and left nothing due. */
  ghost predicate RightSoFar(s: Store, today: DueDate, input: seq<string>, t: Store, rounds: nat) {
    forall id :: AnswersRight(s, today, input, id) ==>
      || rounds == 0
      || (&& rounds == 1 && NoneDue(t, today) && id in t
          && t[id].box == s[id].box + 1 && t[id].due == AddDays(today, Pow2(s[id].box + 1)))
  }

  /** After a declined wrong answer to the only due card, the session has
      reset it once and read all input. */
  ghost predicate WrongSoFar(s: Store, today: DueDate, input: seq<string>, t: Store, lines: seq<string>, rounds: nat) {
    forall id :: AnswersWrongThenStops(s, today, input, id) ==>
      rounds == 0 || (rounds == 1 && t == s[id := s[id].(box := 0, due := today)] && lines == [])
  }

  /** The state of a session after `rounds` reviews, with `t` the table,
      `lines` the input still unread and `first` the first card judged. */
  ghost predicate Progress(s: Store, today: DueDate, input: seq<string>, t: Store, lines: seq<string>, rounds: nat,
                           first: Option<int>) {
    && Framed(s, today, t)
    && (NoneDue(s, today) ==> t == s)
    && (rounds == 0 ==> t == s && lines == input)
    && FirstSoFar(s, today, input, t, rounds, first)
    && RightSoFar(s, today, input, t, rounds)
    && WrongSoFar(s, today, input, t, lines, rounds)
  }

  /** What a session promises when it ends with `end` and table `t`:
      - the table is framed: rows, fronts and backs kept, and only cards due
        at the start changed, each to what a review today leaves behind;
      - it ends "done for today" only when no card is due, and it does so,
        reviewing nothing, when none was due at the start;
      - with no input nothing changes;
      - with a single due card, a right answer ends the session with it
        advanced, and a declined wrong answer with nothing more typed resets
        it to box 0, due today. */
  ghost predicate Outcome(s: Store, today: DueDate, input: seq<string>, end: SessionEnd, t: Store) {
    && Framed(s, today, t)
    && (end == DoneForToday ==> NoneDue(t, today))
    && (NoneDue(s, today) ==> end == DoneForToday && t == s)
    && (input == [] ==> t == s)
    && (forall id :: AnswersRight(s, today, input, id) ==>
          || (end == DoneForToday && t[id].box == s[id].box + 1 && t[id].due == AddDays(today, Pow2(s[id].box + 1)))
          || (end == StoreFailed && t == s))
    && (forall id :: AnswersWrongThenStops(s, today, input, id) ==>
          end == InputClosed && t == s[id := s[id].(box := 0, due := today)])
  }

  /** What a session promises about `first`, the first card it judged: a card
      is judged exactly when one was due and there was input; that card was
      due, and a right first answer to it advances it, unless that very write
      is refused. */
  ghost predicate FirstOutcome(s: Store, today: DueDate, input: seq<string>, end: SessionEnd, t: Store, first: Option<int>) {
    && (first.Some? <==> !NoneDue(s, today) && input != [])
    && (first.Some? ==>
          && first.value in s && IsDue(s[first.value], today)
          && (FirstAnswerRight(s, input, first.value) ==>
                Advanced(s, today, t, first.value) || (end == StoreFailed && t == s)))
  }

  /** What `Judge` promised about the answer `got` to a card with back `back`. */
  ghost predicate Judged(back: string, got: string, lines: seq<string>, correct: Option<bool>, rest: seq<string>) {
    && (got == back ==> correct == Some(true) && rest == lines)
    && (got != back ==> ConfirmOutcome(lines, false, correct, rest))
  }

  /** In the first round, the only due card is the one picked. */
  lemma PickIsOnlyDue(s: Store, today: DueDate, id: int, x: int)
    requires OnlyDue(s, today, x) && id in s && IsDue(s[id], today)
    ensures id == x
  {
  }

  /** An advanced card is due `2^(box+1)` days after today, so it is not
      due today. */
  lemma AdvancedNotDue(s: Store, today: DueDate, t: Store, x: int)
    requires Advanced(s, today, t, x)
    ensures !IsDue(t[x], today)
  {
    BeforeIffSmallerDayNumber(today, t[x].due);
    BeforeIffSmallerDayNumber(t[x].due, today);
  }

  /** Ending because nothing is due keeps every promise. */
  lemma EndDone(s: Store, today: DueDate, input: seq<string>, t: Store, lines: seq<string>, rounds: nat,
                first: Option<int>)
    requires Progress(s, today, input, t, lines, rounds, first)
    requires NoneDue(t, today)
    ensures Outcome(s, today, input, DoneForToday, t)
    ensures FirstOutcome(s, today, input, DoneForToday, t, first)
  {
  }

  /** Ending at end of input, with card `id` due and `judged` the first card
      judged so far, keeps every promise. */
  lemma EndInputClosed(s: Store, today: DueDate, input: seq<string>, t: Store, lines: seq<string>, rounds: nat,
                       first: Option<int>, judged: Option<int>, id: int, correct: Option<bool>, rest: seq<string>)
    requires Progress(s, today, input, t, lines, rounds, first)
    requires id in t && IsDue(t[id], today)
    requires lines == [] || (Judged(t[id].back, lines[0], lines[1..], correct, rest) && correct.None?)
    requires judged == if rounds == 0 && lines != [] then Some(id) else first
    ensures Outcome(s, today, input, InputClosed, t)
    ensures FirstOutcome(s, today, input, InputClosed, t, judged)
  {
    forall x | AnswersRight(s, today, input, x)
      ensures false
    {
      if rounds == 0 {
        PickIsOnlyDue(s, today, id, x);
      }
    }
    forall x | AnswersWrongThenStops(s, today, input, x) && rounds == 0 && lines != []
      ensures false
    {
      PickIsOnlyDue(s, today, id, x);
    }
  }

  /** Ending because the write of card `id` failed keeps every promise. */
  lemma EndWriteFailed(s: Store, today: DueDate, input: seq<string>, t: Store, lines: seq<string>, rounds: nat,
                       first: Option<int>, judged: Option<int>, id: int, correct: bool, rest: seq<string>)
    requires Progress(s, today, input, t, lines, rounds, first)
    requires id in t && IsDue(t[id], today) && lines != []
    requires Judged(t[id].back, lines[0], lines[1..], Some(correct), rest)
    requires !Review(t, id, today, correct).Reviewed?
    requires judged == if rounds == 0 then Some(id) else first
    ensures var end := if Review(t, id, today, correct).ShiftPanic? then ShiftPanicked else StoreFailed;
      Outcome(s, today, input, end, t) && FirstOutcome(s, today, input, end, t, judged)
  {
    if rounds == 0 && FirstAnswerRight(s, input, id) {
      CorrectReview(s, id, today);
    }
    forall x | AnswersRight(s, today, input, x)
      ensures Review(t, id, today, correct).NullDue? && t == s
    {
      PickIsOnlyDue(s, today, id, x);
      CorrectReview(s, id, today);
    }
    forall x | AnswersWrongThenStops(s, today, input, x)
      ensures false
    {
      PickIsOnlyDue(s, today, id, x);
      FailedReview(s, id, today);
    }
  }

  /** A review that was written keeps the session's progress. */
  lemma StepReviewed(s: Store, today: DueDate, input: seq<string>, t: Store, lines: seq<string>, rounds: nat,
                     first: Option<int>, judged: Option<int>, id: int, correct: bool, rest: seq<string>)
    requires Progress(s, today, input, t, lines, rounds, first)
    requires id in t && IsDue(t[id], today) && lines != []
    requires Judged(t[id].back, lines[0], lines[1..], Some(correct), rest)
    requires Review(t, id, today, correct).Reviewed?
    requires judged == if rounds == 0 then Some(id) else first
    ensures Progress(s, today, input, Review(t, id, today, correct).store, rest, rounds + 1, judged)
  {
    StepFramed(s, today, t, id, correct);
    StepFirst(s, today, input, t, lines, rounds, first, judged, id, correct);
    StepRight(s, today, input, t, lines, rounds, id, correct);
    StepWrong(s, today, input, t, lines, rounds, id, correct, rest);
  }

  lemma StepFramed(s: Store, today: DueDate, t: Store, id: int, correct: bool)
    requires Framed(s, today, t)
    requires id in t && IsDue(t[id], today)
    requires Review(t, id, today, correct).Reviewed?
    ensures Framed(s, today, Review(t, id, today, correct).store)
  {
  }

  /** The first review advances its card on a right answer, and later reviews
      leave an advanced card alone, because it is no longer due. */
  lemma StepFirst(s: Store, today: DueDate, input: seq<string>, t: Store, lines: seq<string>, rounds: nat,
                  first: Option<int>, judged: Option<int>, id: int, correct: bool)
    requires FirstSoFar(s, today, input, t, rounds, first)
    requires rounds == 0 ==> t == s && lines == input
    requires id in t && IsDue(t[id], today) && lines != []
    requires lines[0] == t[id].back ==> correct
    requires Review(t, id, today, correct).Reviewed?
    requires judged == if rounds == 0 then Some(id) else first
    ensures FirstSoFar(s, today, input, Review(t, id, today, correct).store, rounds + 1, judged)
  {
    var next := Review(t, id, today, correct).store;
    var x := judged.value;
    if FirstAnswerRight(s, input, x) {
      if rounds == 0 {
        CorrectAdvances(s[x].box);
      } else {
        AdvancedNotDue(s, today, t, x);
        assert next[x] == t[x];
      }
    }
  }

  lemma StepRight(s: Store, today: DueDate, input: seq<string>, t: Store, lines: seq<string>, rounds: nat,
                  id: int, correct: bool)
    requires RightSoFar(s, today, input, t, rounds)
    requires rounds == 0 ==> t == s && lines == input
    requires id in t && IsDue(t[id], today) && lines != []
    requires lines[0] == t[id].back ==> correct
    requires Review(t, id, today, correct).Reviewed?
    ensures RightSoFar(s, today, input, Review(t, id, today, correct).store, rounds + 1)
  {
    var next := Review(t, id, today, correct).store;
    forall x | AnswersRight(s, today, input, x)
      ensures && rounds == 0 && NoneDue(next, today)
              && next[x].box == s[x].box + 1 && next[x].due == AddDays(today, Pow2(s[x].box + 1))
    {
      if rounds == 0 {
        PickIsOnlyDue(s, today, id, x);
        CorrectAdvances(s[id].box);
        CorrectReview(s, id, today);
      } else {
        assert false;
      }
    }
  }

  lemma StepWrong(s: Store, today: DueDate, input: seq<string>, t: Store, lines: seq<string>, rounds: nat,
                  id: int, correct: bool, rest: seq<string>)
    requires WrongSoFar(s, today, input, t, lines, rounds)
    requires rounds == 0 ==> t == s && lines == input
    requires id in t && IsDue(t[id], today) && lines != []
    requires Judged(t[id].back, lines[0], lines[1..], Some(correct), rest)
    requires Review(t, id, today, correct).Reviewed?
    ensures WrongSoFar(s, today, input, Review(t, id, today, correct).store, rest, rounds + 1)
  {
    var next := Review(t, id, today, correct).store;
    forall x | AnswersWrongThenStops(s, today, input, x)
      ensures rounds == 0 && next == s[x := s[x].(box := 0, due := today)] && rest == []
    {
      if rounds == 0 {
        PickIsOnlyDue(s, today, id, x);
        assert lines[1..] == [input[1]] + [];
        FirstReplyDecides(input[1], [], false);
        ConfirmDeterministic(lines[1..], false, Some(correct), rest, Some(false), []);
        FailedReview(s, id, today);
      } else {
        assert false;
      }
    }
  }

  /** One run of `word FILE`: fetch some due card, read the answer, judge
      it and write the card back, until no card is due, input ends or the
      write fails. `first` names the first card judged, if any; `Outcome`
      and `FirstOutcome` say what the run promises. */
  method Session(s: Store, today: DueDate, input: seq<string>) returns (end: SessionEnd, t: Store, ghost first: Option<int>)
    ensures Outcome(s, today, input, end, t)
    ensures FirstOutcome(s, today, input, end, t, first)
  {
    t := s;
    first := None;
    var lines := input;
    ghost var rounds: nat := 0;
    while true
      invariant Progress(s, today, input, t, lines, rounds, first)
      decreases |lines|
    {
      var pick := SelectDue(t, today);
      if pick.None? {
        EndDone(s, today, input, t, lines, rounds, first);
        return DoneForToday, t, first;
      }
      var id := pick.value;
      if lines == [] {
        EndInputClosed(s, today, input, t, lines, rounds, first, first, id, None, []);
        return InputClosed, t, first;
      }
      ghost var judged := if rounds == 0 then Some(id) else first;
      var correct, rest := Judge(t[id].back, lines[0], lines[1..]);
      if correct.None? {
        EndInputClosed(s, today, input, t, lines, rounds, first, judged, id, correct, rest);
        return InputClosed, t, judged;
      }
      var r := Review(t, id, today, correct.value);
      if !r.Reviewed? {
        EndWriteFailed(s, today, input, t, lines, rounds, first, judged, id, correct.value, rest);
        return if r.ShiftPanic? then ShiftPanicked else StoreFailed, t, judged;
      }
      StepReviewed(s, today, input, t, lines, rounds, first, judged, id, correct.value, rest);
      t, lines, rounds, first := r.store, rest, rounds + 1, judged;
    }
  }
}

=== FILE: transfer.dfy ===
/** Bulk transfer: `export` writes every card as a four-field record in id
    order, `import` validates records one by one and inserts the good ones.
    Records arrive already split into fields (CSV quoting is the reader's and
    writer's business). The CSV reader fixes the expected number of fields
    from the first record; a later record with another count is a read error,
    which ends the import with the rows inserted so far kept. */
module Transfer {

  import opened Maybe
  import opened Decimal
  import opened DateText
  import opened WordStore
  import KeyOrder

  type Record = seq<string>

  /** One exported row: front, back, the box in decimal, the due date text.
      Its four fields are the ones import reads back. */
  function ExportRecord(c: Card): (r: Record)
    ensures |r| == 4 && r[0] == c.front && r[1] == c.back
    ensures Atoi(r[2]) == Some(c.box as int)
    ensures ParseDate(r[3]) == Some(c.due)
  {
    AtoiOfFormat(c.box);
    ParseOfFormat(c.due);
    [c.front, c.back, FormatInt(c.box), FormatDate(c.due)]
  }

  /** `f` applied to each element, in order. */
  function Map<A, B>(f: A -> B, xs: seq<A>): (ys: seq<B>)
    ensures |ys| == |xs|
    ensures forall i :: 0 <= i < |xs| ==> ys[i] == f(xs[i])
  {
    if xs == [] then [] else [f(xs[0])] + Map(f, xs[1..])
  }

  lemma {:induction false} MapConcat<A, B>(f: A -> B, a: seq<A>, b: seq<A>)
    ensures Map(f, a + b) == Map(f, a) + Map(f, b)
    decreases |a|
  {
    if a == [] {
      assert a + b == b;
    } else {
      assert (a + b)[0] == a[0] && (a + b)[1..] == a[1..] + b;
      MapConcat(f, a[1..], b);
      ConcatAssociative([f(a[0])], Map(f, a[1..]), Map(f, b));
    }
  }

  /** The export records of some cards, in order. */
  function Records(cs: seq<Card>): (rs: seq<Record>)
    ensures |rs| == |cs|
    ensures forall i :: 0 <= i < |cs| ==> rs[i] == ExportRecord(cs[i])
  {
    Map(ExportRecord, cs)
  }

  lemma RecordsConcat(a: seq<Card>, b: seq<Card>)
    ensures Records(a + b) == Records(a) + Records(b)
  {
    MapConcat(ExportRecord, a, b);
  }

  /** The cards of `s`, smallest id first. */
  function CardsInOrder(s: Store): (cs: seq<Card>)
    ensures |cs| == |s.Keys|
  {
    var ids := KeyOrder.Ascending(s.Keys);
    seq(|ids|, i requires 0 <= i < |ids| => s[ids[i]])
  }

  /** `select front, back, box, due from words order by id`, one record per row. */
  function Export(s: Store): (rs: seq<Record>)
    ensures |rs| == |s.Keys|
    ensures forall i :: 0 <= i < |rs| ==> |rs[i]| == 4
  {
    Records(CardsInOrder(s))
  }

  /** The export lists the rows by ascending id: record `i` is the row with
      the `i`-th smallest id. */
  lemma ExportListing(s: Store)
    ensures forall i :: 0 <= i < |Export(s)| ==>
      KeyOrder.Ascending(s.Keys)[i] in s && Export(s)[i] == ExportRecord(s[KeyOrder.Ascending(s.Keys)[i]])
  {
    forall i | 0 <= i < |s.Keys|
      ensures KeyOrder.Ascending(s.Keys)[i] in s
      ensures Export(s)[i] == ExportRecord(s[KeyOrder.Ascending(s.Keys)[i]])
    {
      ExportAt(s, i);
    }
  }

  lemma ExportAt(s: Store, i: nat)
    requires i < |s.Keys|
    ensures KeyOrder.Ascending(s.Keys)[i] in s
    ensures Export(s)[i] == ExportRecord(s[KeyOrder.Ascending(s.Keys)[i]])
  {
    CardInOrder(s, i);
  }

  /** Every card is exported, at the position of its id among the ids in
      ascending order, so a card with a smaller id comes earlier. */
  lemma ExportInIdOrder(s: Store, a: int, b: int)
    requires a in s && b in s && a < b
    ensures exists i, j :: (0 <= i < j < |Export(s)|
      && KeyOrder.Ascending(s.Keys)[i] == a && KeyOrder.Ascending(s.Keys)[j] == b
      && Export(s)[i] == ExportRecord(s[a]) && Export(s)[j] == ExportRecord(s[b]))
  {
    var ids := KeyOrder.Ascending(s.Keys);
    var i :| 0 <= i < |ids| && ids[i] == a;
    var j :| 0 <= j < |ids| && ids[j] == b;
    IncreasingIndexes(ids, i, j);
    ExportAt(s, i);
    ExportAt(s, j);
  }

  /** In a strictly increasing sequence the smaller value sits earlier. */
  lemma IncreasingIndexes(xs: seq<int>, i: nat, j: nat)
    requires forall p, q :: 0 <= p < q < |xs| ==> xs[p] < xs[q]
    requires i < |xs| && j < |xs| && xs[i] < xs[j]
    ensures i < j
  {
  }

  datatype Rejection = WrongFieldCount | NotANumber(text: string) | InvalidDate(text: string)

  datatype Checked = Accept(card: Card) | Reject(why: Rejection)

  /** The checks of `import`, in order: four fields, a box `strconv.Atoi`
      reads, a due date `time.Parse` reads with the DateOnly layout. An
      accepted record becomes a card holding exactly its values. */
  function CheckRecord(rec: Record): (r: Checked)
    ensures r.Accept? <==> |rec| == 4 && Atoi(rec[2]).Some? && ParseDate(rec[3]).Some?
    ensures r.Accept? ==> r.card == Card(rec[0], rec[1], Atoi(rec[2]).value, ParseDate(rec[3]).value)
    ensures |rec| != 4 ==> r == Reject(WrongFieldCount)
    ensures |rec| == 4 && Atoi(rec[2]).None? ==> r == Reject(NotANumber(rec[2]))
    ensures |rec| == 4 && Atoi(rec[2]).Some? && ParseDate(rec[3]).None? ==> r == Reject(InvalidDate(rec[3]))
  {
    if |rec| != 4 then Reject(WrongFieldCount)
    else
      match Atoi(rec[2])
      case None => Reject(NotANumber(rec[2]))
      case Some(box) =>
        match ParseDate(rec[3])
        case None => Reject(InvalidDate(rec[3]))
        case Some(due) => Accept(Card(rec[0], rec[1], box, due))
  }

  /** An accepted record exports back to itself, except that the box is
      written in its shortest spelling. */
  lemma AcceptedReexports(rec: Record)
    requires CheckRecord(rec).Accept?
    ensures ExportRecord(CheckRecord(rec).card) == [rec[0], rec[1], FormatInt(Atoi(rec[2]).value), rec[3]]
  {
  }

  /** A skipped record and its 1-based position in the input. */
  datatype Warning = Warning(line: nat, why: Rejection)

  datatype ImportEnd =
    | Finished(store: Store, warnings: seq<Warning>)
    | FieldCountError(store: Store, warnings: seq<Warning>, line: nat)

  /** The `import` loop from record number `line + 1` on; `width` is the field
      count the CSV reader expects, if it has read a record yet. Rows already
      in the table are never changed. */
  function ImportFrom(s: Store, width: Option<nat>, line: nat, recs: seq<Record>, warnings: seq<Warning>): (r: ImportEnd)
    ensures s.Keys <= r.store.Keys
    ensures forall k :: k in s ==> r.store[k] == s[k]
    decreases |recs|
  {
    if recs == [] then Finished(s, warnings)
    else if width.Some? && |recs[0]| != width.value then FieldCountError(s, warnings, line + 1)
    else
      match CheckRecord(recs[0])
      case Accept(c) => ImportFrom(Insert(s, c), Some(|recs[0]|), line + 1, recs[1..], warnings)
      case Reject(why) => ImportFrom(s, Some(|recs[0]|), line + 1, recs[1..], warnings + [Warning(line + 1, why)])
  }

  /** The verdict `CheckRecord` gives each record, in input order. */
  function Verdicts(recs: seq<Record>): (vs: seq<Checked>)
    ensures |vs| == |recs|
    ensures forall i :: 0 <= i < |recs| ==> vs[i] == CheckRecord(recs[i])
  {
    Map(CheckRecord, recs)
  }

  /** The card of an accepted record; nothing for a rejected one. */
  function Kept(v: Checked): seq<Card> {
    match v case Accept(c) => [c] case Reject(_) => []
  }

  /** The cards of the accepted records, in input order. */
  function Accepted(vs: seq<Checked>): seq<Card> {
    if vs == [] then [] else Kept(vs[0]) + Accepted(vs[1..])
  }

  /** The warning for a rejected record numbered `line`; nothing for an
      accepted one. */
  function Warned(line: nat, v: Checked): seq<Warning> {
    match v case Accept(_) => [] case Reject(why) => [Warning(line, why)]
  }

  /** The warnings for the rejected records, numbered from `line + 1`, in
      input order. */
  function Skipped(line: nat, vs: seq<Checked>): seq<Warning>
    decreases |vs|
  {
    if vs == [] then [] else Warned(line + 1, vs[0]) + Skipped(line + 1, vs[1..])
  }

  /** Every warning names a rejected record by its number and gives the
      reason it was rejected for. */
  lemma {:induction false} SkippedAreRejected(line: nat, vs: seq<Checked>)
    ensures forall w :: w in Skipped(line, vs) ==>
      line < w.line <= line + |vs| && vs[w.line - line - 1] == Reject(w.why)
    decreases |vs|
  {
    if vs != [] {
      var tail := vs[1..];
      SkippedAreRejected(line + 1, tail);
      forall w | w in Skipped(line, vs)
        ensures line < w.line <= line + |vs| && vs[w.line - line - 1] == Reject(w.why)
      {
        if w !in Warned(line + 1, vs[0]) {
          assert w in Skipped(line + 1, tail);
          assert tail[w.line - line - 2] == vs[w.line - line - 1];
        }
      }
    }
  }

  /** Every rejected record gets a warning with its number and reason. */
  lemma {:induction false} RejectedAreSkipped(line: nat, vs: seq<Checked>, i: nat)
    requires i < |vs| && vs[i].Reject?
    ensures Warning(line + i + 1, vs[i].why) in Skipped(line, vs)
    decreases i
  {
    if i > 0 {
      assert vs[1..][i - 1] == vs[i];
      RejectedAreSkipped(line + 1, vs[1..], i - 1);
    }
  }

  /** With every record accepted there is nothing to warn about. */
  lemma {:induction false} NothingSkipped(line: nat, vs: seq<Checked>)
    requires forall i :: 0 <= i < |vs| ==> vs[i].Accept?
    ensures Skipped(line, vs) == []
    decreases |vs|
  {
    if vs != [] {
      assert vs[0].Accept?;
      assert forall i :: 0 <= i < |vs| - 1 ==> vs[1..][i] == vs[i + 1];
      NothingSkipped(line + 1, vs[1..]);
    }
  }

  lemma {:induction false} AcceptedConcat(a: seq<Checked>, b: seq<Checked>)
    ensures Accepted(a + b) == Accepted(a) + Accepted(b)
    decreases |a|
  {
    if a != [] {
      assert (a + b)[0] == a[0];
      assert (a + b)[1..] == a[1..] + b;
      AcceptedConcat(a[1..], b);
    } else {
      assert a + b == b;
    }
  }

  /** The verdicts of the first `i` records: the first one's, then those of
      the next `i - 1`. */
  lemma PrefixVerdicts(recs: seq<Record>, i: nat)
    requires 0 < i <= |recs|
    ensures Verdicts(recs[..i]) == [CheckRecord(recs[0])] + Verdicts(recs[1..][..i - 1])
  {
    var head := recs[..i];
    assert head[0] == recs[0] && head[1..] == recs[1..][..i - 1];
  }

  function InsertAll(s: Store, cs: seq<Card>): Store
    decreases |cs|
  {
    if cs == [] then s else InsertAll(Insert(s, cs[0]), cs[1..])
  }

  predicate UniformWidth(recs: seq<Record>, w: nat) {
    forall i :: 0 <= i < |recs| ==> |recs[i]| == w
  }

  lemma {:induction false} InsertAllConcat(s: Store, a: seq<Card>, b: seq<Card>)
    ensures InsertAll(s, a + b) == InsertAll(InsertAll(s, a), b)
    decreases |a|
  {
    if a != [] {
      assert (a + b)[0] == a[0];
      assert (a + b)[1..] == a[1..] + b;
      InsertAllConcat(Insert(s, a[0]), a[1..], b);
    } else {
      assert a + b == b;
    }
  }

  /** One turn of the import loop on a record of the expected width: its card
      is inserted if it is accepted, its warning is added if it is not. */
  lemma ImportStep(s: Store, width: Option<nat>, line: nat, recs: seq<Record>, warnings: seq<Warning>)
    requires recs != [] && (width.None? || |recs[0]| == width.value)
    ensures var v := CheckRecord(recs[0]);
      ImportFrom(s, width, line, recs, warnings)
        == ImportFrom(InsertAll(s, Kept(v)), Some(|recs[0]|), line + 1, recs[1..], warnings + Warned(line + 1, v))
  {
    match CheckRecord(recs[0])
    case Accept(c) =>
      assert InsertAll(s, [c]) == InsertAll(Insert(s, c), []);
      assert warnings + [] == warnings;
    case Reject(_) =>
  }

  /** What the first record of a non-empty input contributes, followed by
      the rest. */
  lemma VerdictsUnfold(line: nat, recs: seq<Record>)
    requires recs != []
    ensures Accepted(Verdicts(recs)) == Kept(CheckRecord(recs[0])) + Accepted(Verdicts(recs[1..]))
    ensures Skipped(line, Verdicts(recs)) == Warned(line + 1, CheckRecord(recs[0])) + Skipped(line + 1, Verdicts(recs[1..]))
  {
    var vs := Verdicts(recs);
    assert vs[0] == CheckRecord(recs[0]) && vs[1..] == Verdicts(recs[1..]);
  }

  /** When every record has the same number of fields, import never stops
      early: it inserts exactly the accepted records, in order, and prints one
      warning per rejected record, with its number and reason, and no other. */
  lemma ImportUniform(s: Store, width: Option<nat>, line: nat, recs: seq<Record>, warnings: seq<Warning>, w: nat)
    requires UniformWidth(recs, w)
    requires width == None || width == Some(w)
    ensures ImportFrom(s, width, line, recs, warnings).Finished?
    ensures ImportFrom(s, width, line, recs, warnings).store == InsertAll(s, Accepted(Verdicts(recs)))
    ensures ImportFrom(s, width, line, recs, warnings).warnings == warnings + Skipped(line, Verdicts(recs))
    ensures (forall i :: 0 <= i < |recs| ==> CheckRecord(recs[i]).Accept?) ==>
      ImportFrom(s, width, line, recs, warnings).warnings == warnings
  {
    ImportUniformSteps(s, width, line, recs, warnings, w);
    if forall i :: 0 <= i < |recs| ==> CheckRecord(recs[i]).Accept? {
      NothingSkipped(line, Verdicts(recs));
      assert warnings + [] == warnings;
    }
  }

  lemma {:induction false} ImportUniformSteps(s: Store, width: Option<nat>, line: nat, recs: seq<Record>, warnings: seq<Warning>, w: nat)
    requires UniformWidth(recs, w)
    requires width == None || width == Some(w)
    ensures ImportFrom(s, width, line, recs, warnings).Finished?
    ensures ImportFrom(s, width, line, recs, warnings).store == InsertAll(s, Accepted(Verdicts(recs)))
    ensures ImportFrom(s, width, line, recs, warnings).warnings == warnings + Skipped(line, Verdicts(recs))
    decreases |recs|
  {
    if recs == [] {
      assert warnings + [] == warnings;
    } else {
      var v, tail := CheckRecord(recs[0]), recs[1..];
      assert forall i :: 0 <= i < |tail| ==> tail[i] == recs[i + 1];
      ImportStep(s, width, line, recs, warnings);
      ImportUniformSteps(InsertAll(s, Kept(v)), Some(w), line + 1, tail, warnings + Warned(line + 1, v), w);
      VerdictsUnfold(line, recs);
      InsertAllConcat(s, Kept(v), Accepted(Verdicts(tail)));
      ConcatAssociative(warnings, Warned(line + 1, v), Skipped(line + 1, Verdicts(tail)));
    }
  }

  /** A record whose field count differs from the expected one ends the
      import at that record, after the earlier ones were processed: the rows
      they gave stay inserted and their warnings stay printed. Before the
      first record no width is expected yet; the first record then fixes it. */
  lemma {:induction false} ImportStopsAtWidthChange(s: Store, width: Option<nat>, line: nat, recs: seq<Record>, warnings: seq<Warning>, w: nat, i: nat)
    requires i < |recs| && |recs[i]| != w
    requires forall j :: 0 <= j < i ==> |recs[j]| == w
    requires width == Some(w) || (width == None && 0 < i)
    ensures ImportFrom(s, width, line, recs, warnings).FieldCountError?
    ensures ImportFrom(s, width, line, recs, warnings).line == line + i + 1
    ensures ImportFrom(s, width, line, recs, warnings).store == InsertAll(s, Accepted(Verdicts(recs[..i])))
    ensures ImportFrom(s, width, line, recs, warnings).warnings == warnings + Skipped(line, Verdicts(recs[..i]))
    decreases i
  {
    if i == 0 {
      assert recs[..0] == [];
      assert warnings + [] == warnings;
    } else {
      var v, tail := CheckRecord(recs[0]), recs[1..];
      assert forall j :: 0 <= j < |tail| ==> tail[j] == recs[j + 1];
      ImportStep(s, width, line, recs, warnings);
      ImportStopsAtWidthChange(InsertAll(s, Kept(v)), Some(w), line + 1, tail, warnings + Warned(line + 1, v), w, i - 1);
      PrefixVerdicts(recs, i);
      var rest := Verdicts(tail[..i - 1]);
      assert Verdicts(recs[..i])[1..] == rest;
      InsertAllConcat(s, Kept(v), Accepted(rest));
      ConcatAssociative(warnings, Warned(line + 1, v), Skipped(line + 1, rest));
    }
  }

  /** A record with a different field count from the first one is not skipped:
      the CSV reader's error aborts the whole import at that record, and the
      rows inserted before it stay. */
  lemma ImportAbortsOnWidthChange(s: Store, recs: seq<Record>, i: nat)
    requires 0 < i < |recs| && |recs[i]| != |recs[0]|
    requires forall j :: 0 < j < i ==> |recs[j]| == |recs[0]|
    ensures Import(s, recs).FieldCountError?
    ensures Import(s, recs).line == i + 1
    ensures Import(s, recs).store == InsertAll(s, Accepted(Verdicts(recs[..i])))
    ensures Import(s, recs).warnings == Skipped(0, Verdicts(recs[..i]))
  {
    ImportStopsAtWidthChange(s, None, 0, recs, [], |recs[0]|, i);
    assert [] + Skipped(0, Verdicts(recs[..i])) == Skipped(0, Verdicts(recs[..i]));
  }

  /** The first record whose field count differs from the first record's. */
  lemma FirstWidthChange(recs: seq<Record>) returns (i: nat)
    requires recs != [] && !UniformWidth(recs, |recs[0]|)
    ensures 0 < i < |recs| && |recs[i]| != |recs[0]|
    ensures forall j :: 0 < j < i ==> |recs[j]| == |recs[0]|
  {
    var bad :| 0 <= bad < |recs| && |recs[bad]| != |recs[0]|;
    i := 1;
    while |recs[i]| == |recs[0]|
      invariant 0 < i <= bad
      invariant forall j :: 0 < j < i ==> |recs[j]| == |recs[0]|
      decreases bad - i
    {
      i := i + 1;
    }
  }

  /** `import`: it runs to the end exactly when every record has the first
      record's field count; then it has inserted the accepted records in
      input order and warned about each rejected one. Rows already in the
      table are never changed. */
  function Import(s: Store, recs: seq<Record>): (r: ImportEnd)
    ensures s.Keys <= r.store.Keys && forall k :: k in s ==> r.store[k] == s[k]
    ensures r.Finished? <==> recs == [] || UniformWidth(recs, |recs[0]|)
    ensures r.Finished? ==> r.store == InsertAll(s, Accepted(Verdicts(recs))) && r.warnings == Skipped(0, Verdicts(recs))
  {
    ImportOutcome(s, recs);
    ImportFrom(s, None, 0, recs, [])
  }

  lemma ImportOutcome(s: Store, recs: seq<Record>)
    ensures var r := ImportFrom(s, None, 0, recs, []);
      && (r.Finished? <==> recs == [] || UniformWidth(recs, |recs[0]|))
      && (r.Finished? ==> r.store == InsertAll(s, Accepted(Verdicts(recs))) && r.warnings == Skipped(0, Verdicts(recs)))
  {
    if recs == [] {
    } else if UniformWidth(recs, |recs[0]|) {
      ImportUniform(s, None, 0, recs, [], |recs[0]|);
      assert [] + Skipped(0, Verdicts(recs)) == Skipped(0, Verdicts(recs));
    } else {
      var i := FirstWidthChange(recs);
      ImportStopsAtWidthChange(s, None, 0, recs, [], |recs[0]|, i);
    }
  }

  /** A rejected record changes nothing: importing it between other records
      leaves the same table as importing those records alone. */
  lemma BadRecordSkipped(s: Store, a: seq<Record>, bad: Record, b: seq<Record>)
    requires CheckRecord(bad).Reject?
    requires UniformWidth(a + [bad] + b, |bad|)
    ensures Import(s, a + [bad] + b).Finished?
    ensures Import(s, a + [bad] + b).store == Import(s, a + b).store
  {
    var w := |bad|;
    assert UniformWidth(a + b, w) by {
      forall i | 0 <= i < |a + b|
        ensures |(a + b)[i]| == w
      {
        if i < |a| {
          assert (a + b)[i] == (a + [bad] + b)[i];
        } else {
          assert (a + b)[i] == (a + [bad] + b)[i + 1];
        }
      }
    }
    ImportUniform(s, None, 0, a + [bad] + b, [], w);
    ImportUniform(s, None, 0, a + b, [], w);
    MapConcat(CheckRecord, a + [bad], b);
    MapConcat(CheckRecord, a, [bad]);
    MapConcat(CheckRecord, a, b);
    var va, vb, vbad := Verdicts(a), Verdicts(b), Verdicts([bad]);
    AcceptedConcat(va + vbad, vb);
    AcceptedConcat(va, vbad);
    AcceptedConcat(va, vb);
    assert Accepted(vbad) == [] by {
      assert vbad[1..] == [];
    }
    assert Accepted(va + vbad) == Accepted(va);
  }

  /** Exporting a card and importing the record gives back the same card. */
  lemma ExportedRecordAccepted(c: Card)
    ensures CheckRecord(ExportRecord(c)) == Accept(c)
  {
    AtoiOfFormat(c.box);
    ParseOfFormat(c.due);
  }

  /** Cards that were all accepted, in order. */
  lemma {:induction false} AllAccepted(vs: seq<Checked>, cs: seq<Card>)
    requires |vs| == |cs| && forall i :: 0 <= i < |vs| ==> vs[i] == Accept(cs[i])
    ensures Accepted(vs) == cs
    decreases |vs|
  {
    if vs != [] {
      assert forall i :: 0 <= i < |vs| - 1 ==> vs[1..][i] == vs[i + 1] && cs[1..][i] == cs[i + 1];
      AllAccepted(vs[1..], cs[1..]);
      assert cs == [cs[0]] + cs[1..];
    }
  }

  /** Every exported record passes the import checks as the card it came from. */
  lemma AcceptedRecords(cs: seq<Card>)
    ensures forall i :: 0 <= i < |cs| ==> CheckRecord(Records(cs)[i]) == Accept(cs[i])
    ensures Accepted(Verdicts(Records(cs))) == cs
  {
    var vs := Verdicts(Records(cs));
    forall i | 0 <= i < |vs|
      ensures vs[i] == Accept(cs[i])
    {
      ExportedRecordAccepted(cs[i]);
    }
    AllAccepted(vs, cs);
  }

  lemma SnocEqual<T>(a: seq<T>, b: seq<T>, x: T)
    requires |a| == |b| + 1 && a[|b|] == x
    requires forall i :: 0 <= i < |b| ==> a[i] == b[i]
    ensures a == b + [x]
  {
  }

  lemma ConcatAssociative<T>(a: seq<T>, b: seq<T>, c: seq<T>)
    ensures a + b + c == a + (b + c)
  {
  }

  /** The `i`-th card in id order is the card under the `i`-th smallest id. */
  lemma CardInOrder(s: Store, i: nat)
    requires i < |s.Keys|
    ensures KeyOrder.Ascending(s.Keys)[i] in s
    ensures CardsInOrder(s)[i] == s[KeyOrder.Ascending(s.Keys)[i]]
  {
    var ids := KeyOrder.Ascending(s.Keys);
    assert ids[i] in ids;
  }

  /** A newly inserted card has the largest id, so it comes last, after
      every card that was already there in their old order. */
  lemma CardsAfterInsert(s: Store, c: Card)
    ensures CardsInOrder(Insert(s, c)) == CardsInOrder(s) + [c]
  {
    var t, k := Insert(s, c), NextId(s);
    var before, after := CardsInOrder(s), CardsInOrder(t);
    KeyOrder.AscendingWithLargest(s.Keys, k);
    assert KeyOrder.Ascending(t.Keys) == KeyOrder.Ascending(s.Keys) + [k];
    forall i | 0 <= i < |before|
      ensures after[i] == before[i]
    {
      CardInOrder(s, i);
      CardInOrder(t, i);
    }
    CardInOrder(t, |before|);
    SnocEqual(after, before, c);
  }

  /** The export lists a newly inserted card last. */
  lemma ExportAfterInsert(s: Store, c: Card)
    ensures Export(Insert(s, c)) == Export(s) + [ExportRecord(c)]
  {
    CardsAfterInsert(s, c);
    RecordsConcat(CardsInOrder(s), [c]);
    assert Records([c]) == [ExportRecord(c)];
  }

  lemma {:induction false} ExportAfterInsertAll(s: Store, cs: seq<Card>)
    ensures Export(InsertAll(s, cs)) == Export(s) + Records(cs)
    decreases |cs|
  {
    if cs != [] {
      ExportAfterInsert(s, cs[0]);
      ExportAfterInsertAll(Insert(s, cs[0]), cs[1..]);
      assert Records(cs) == [ExportRecord(cs[0])] + Records(cs[1..]);
      ConcatAssociative(Export(s), [ExportRecord(cs[0])], Records(cs[1..]));
    }
  }

  lemma ExportOfEmpty()
    ensures Export(EmptyStore) == []
  {
    assert KeyOrder.Ascending(EmptyStore.Keys) == [];
  }

  /** Export then import into a new table reproduces every card's front, back,
      box and due in the same order, with nothing skipped. */
  lemma RoundTrip(s: Store)
    ensures Import(EmptyStore, Export(s)).Finished?
    ensures Import(EmptyStore, Export(s)).warnings == []
    ensures Export(Import(EmptyStore, Export(s)).store) == Export(s)
  {
    var cs := CardsInOrder(s);
    assert Export(s) == Records(cs);
    ImportOfRecords(cs);
    ExportAfterInsertAll(EmptyStore, cs);
    ExportOfEmpty();
  }

  /** Importing exported records into a new table inserts their cards in
      order, with no warning. */
  lemma ImportOfRecords(cs: seq<Card>)
    ensures Import(EmptyStore, Records(cs)).Finished?
    ensures Import(EmptyStore, Records(cs)).warnings == []
    ensures Import(EmptyStore, Records(cs)).store == InsertAll(EmptyStore, cs)
  {
    var recs := Records(cs);
    AcceptedRecords(cs);
    assert UniformWidth(recs, 4);
    ImportUniform(EmptyStore, None, 0, recs, [], 4);
  }
}

=== FILE: word_store.dfy ===
/** The `words` table: cards keyed by row id, the statements the program runs
    against it (add, select a due card, move a card after review), and the
    defaults the schema gives a new row. */
module WordStore {

  import opened Maybe
  import opened Decimal
  import opened Calendar
  import opened DateText
  import opened Leitner
  import KeyOrder

  /** A `due` value the table can hold: the `YYYY-MM-DD` text of a real date. */
  type DueDate = d: Date | InTextRange(d) witness Date(2000, 1, 1)

  datatype Card = Card(front: string, back: string, box: Int64, due: DueDate)

  /** Row id to row. */
  type Store = map<int, Card>

  /** The table right after `create table`. */
  const EmptyStore: Store := map[]

  /** `where due <= date()`: the card may be studied today. The query compares
      the stored text with today's text; on these dates that is date order. */
  predicate IsDue(c: Card, today: DueDate)
    ensures IsDue(c, today) <==> TextLe(FormatDate(c.due), FormatDate(today))
  {
    TextOrderIsDateOrder(c.due, today);
    OnOrBefore(c.due, today)
  }

  /** The row id SQLite gives an inserted row that names none: one more than
      the largest id in the table, or 1 when the table is empty. */
  function NextId(s: Store): (id: int)
    ensures forall k :: k in s ==> k < id
    ensures s == map[] ==> id == 1
    ensures s != map[] ==> id - 1 in s
  {
    if s == map[] then 1 else KeyOrder.Max(s.Keys) + 1
  }

  /** `insert into words …` without an id: the row is added under a fresh id
      and every existing row stays as it was. */
  function Insert(s: Store, c: Card): (t: Store)
    ensures NextId(s) !in s
    ensures t.Keys == s.Keys + {NextId(s)}
    ensures t[NextId(s)] == c
    ensures forall k :: k in s ==> t[k] == s[k]
  {
    s[NextId(s) := c]
  }

  /** The `add` command: the schema's defaults put a new card in box 0, due today. */
  function AddCard(s: Store, front: string, back: string, today: DueDate): (t: Store)
    ensures t.Keys == s.Keys + {NextId(s)}
    ensures forall k :: k in s ==> t[k] == s[k]
    ensures t[NextId(s)] == Card(front, back, 0, today)
  {
    Insert(s, Card(front, back, 0, today))
  }

  /** The `add` command reading its two lines: end of input before both are
      read exits without inserting anything. */
  function AddFromInput(s: Store, today: DueDate, lines: seq<string>): (t: Store)
    ensures |lines| < 2 ==> t == s
    ensures |lines| >= 2 ==> t.Keys == s.Keys + {NextId(s)}
    ensures |lines| >= 2 ==> t[NextId(s)] == Card(lines[0], lines[1], 0, today)
    ensures forall k :: k in s ==> t[k] == s[k]
  {
    if |lines| < 2 then s else AddCard(s, lines[0], lines[1], today)
  }

  /** How a review's write ends. `ShiftPanic` is Go's panic on a negative
      shift count. `NullDue` is SQLite's `date('now', '+N days')` giving NULL,
      either because the day lies past 9999-12-31 or because a negative `N`
      makes the modifier `+-N days`, which is not a number; the NOT NULL
      column refuses the write, so the program exits with a store error and
      the row stays as it was. */
  datatype ReviewResult = Reviewed(store: Store) | ShiftPanic | NullDue

  /** What a review leaves behind on the day it happens: box 0 due today after
      a wrong answer, or box `b >= 0` due `1 << b` days from today after a
      correct one. */
  predicate ReviewedToday(c: Card, today: DueDate) {
    && c.box >= 0
    && ((c.box == 0 && c.due == today)
        || (ShiftOne(c.box) >= 0 && c.due == AddDays(today, ShiftOne(c.box))))
  }

  /** The update after reviewing card `id`: box and due are written together
      in one statement keyed by `id`, the new due counted from today. */
  function Review(s: Store, id: int, today: DueDate, correct: bool): (r: ReviewResult)
    requires id in s
    ensures r.ShiftPanic? <==> Schedule(s[id].box, correct).NegativeShift?
    ensures r.Reviewed? ==> r.store.Keys == s.Keys
    ensures r.Reviewed? ==> forall k :: k in s && k != id ==> r.store[k] == s[k]
    ensures r.Reviewed? ==> r.store[id].front == s[id].front && r.store[id].back == s[id].back
    ensures r.Reviewed? ==>
      var step := Schedule(s[id].box, correct);
      && step.Move? && step.days >= 0
      && r.store[id].box == step.box && r.store[id].due == AddDays(today, step.days)
    ensures r.Reviewed? ==> ReviewedToday(r.store[id], today)
    ensures r.NullDue? <==>
      var step := Schedule(s[id].box, correct);
      step.Move? && (step.days < 0 || AddDays(today, step.days).year > 9999)
  {
    match Schedule(s[id].box, correct)
    case NegativeShift => ShiftPanic
    case Move(box, days) =>
      if days < 0 then NullDue
      else
        var due := AddDays(today, days);
        if InTextRange(due) then Reviewed(s[id := s[id].(box := box, due := due)])
        else NullDue
  }

  /** A correct review from box `b` in 0..61 puts the card in box `b + 1`, due
      `2^(b+1)` days after today, so it is not due again today. */
  lemma CorrectReview(s: Store, id: int, today: DueDate)
    requires id in s && 0 <= s[id].box <= 61
    ensures !Review(s, id, today, true).ShiftPanic?
    ensures Review(s, id, today, true).Reviewed? ==>
      var c := Review(s, id, today, true).store[id];
      && c.box == s[id].box + 1
      && DayNumber(c.due) == DayNumber(today) + Pow2(s[id].box + 1)
      && !IsDue(c, today)
  {
    CorrectAdvances(s[id].box);
    var r := Review(s, id, today, true);
    if r.Reviewed? {
      var c := r.store[id];
      AddDaysNumber(today, Pow2(s[id].box + 1));
      BeforeIffSmallerDayNumber(c.due, today);
    }
  }

  /** From box 62 the interval is the most negative `int`; SQLite does not read
      the modifier and the write is refused. */
  lemma Box62Review(s: Store, id: int, today: DueDate)
    requires id in s && s[id].box == 62
    ensures Review(s, id, today, true) == NullDue
  {
    Box62GoesNegative();
  }

  /** From box 63 up to the largest `int` less one, the interval is 0 days: a
      correct review raises the box but leaves the card due today. */
  lemma HighBoxReview(s: Store, id: int, today: DueDate)
    requires id in s && 63 <= s[id].box < MaxInt64
    ensures Review(s, id, today, true) == Reviewed(s[id := s[id].(box := s[id].box + 1, due := today)])
    ensures IsDue(Review(s, id, today, true).store[id], today)
  {
    HighBoxHasNoDelay(s[id].box);
  }

  /** A failed review always succeeds as a write: box 0, due today, so the card
      is due again and can come up again in the same session. */
  lemma FailedReview(s: Store, id: int, today: DueDate)
    requires id in s
    ensures Review(s, id, today, false) == Reviewed(s[id := s[id].(box := 0, due := today)])
    ensures IsDue(Review(s, id, today, false).store[id], today)
  {
  }

  /** Picks some card that is due today, or reports that none is. The query
      has no `order by`, so which due card comes back is not specified. */
  method SelectDue(s: Store, today: DueDate) returns (r: Option<int>)
    ensures r.Some? ==> r.value in s && IsDue(s[r.value], today)
    ensures r.None? ==> forall id :: id in s ==> !IsDue(s[id], today)
  {
    var pending := s.Keys;
    while pending != {}
      invariant pending <= s.Keys
      invariant forall id :: id in s && id !in pending ==> !IsDue(s[id], today)
      decreases pending
    {
      KeyOrder.HasElement(pending);
      var id :| id in pending;
      if IsDue(s[id], today) {
        return Some(id);
      }
      pending := pending - {id};
    }
    return None;
  }
}
